=== FILE: README.md ===
# View-Finder entity resolution, modelled in Dafny

View-Finder is a Streamlit app. It takes free trivia text, asks a language model to split it into question/answer pairs and, for every pair, finds the named entities worth looking up. It then reports each entity's Wikipedia page length, URL and page views over the last 365 days. This project models the part of the app that decides *which* entities are looked up and *what* is reported for each:

- **Text utilities** (`TextUtils`). The accent- and case-folding key `normalize_text`, the membership test built on it, and the title-casing applied before a Wikipedia lookup.
- **Entity extraction** (`NlpUtils`). Allow-listed spans of a named-entity classifier, stripped and deduplicated exactly.
- **Language-model response handling** (`LlmUtils`). Three pieces:
  - pulling a JSON array out of the structuring reply and validating it as question/answer objects;
  - cleaning the key-entity reply;
  - accepting a disambiguation choice only when it is one of the candidates.
- **The Wikipedia resolver** (`WikiUtils`). A state machine with these states:
  - missing page;
  - article;
  - disambiguation page, resolved one level deep with the model's help;
  - resolution failures;
  - unexpected errors;
  - page views summed over a window.
- **The analyser's pipeline** (`App`, `Merge`, `Sorting`, `Display`). Three steps:
  - Per pair, the answer's entities, the literal answer, the optional question entities and the model's topic are merged in a dictionary keyed by `normalize_text`, where the last spelling wins. The survivors are sorted by `str.lower`.
  - Each survivor is looked up, and laid out as a row with a status text, the raw numbers, and thousands-grouped display strings of the numbers. The table displays the raw numbers; the display-string columns are hidden.
  - Over the whole run: empty input, structuring failures, and the loop over pairs.

The services are parameters of the model:
- the NFKD decomposition;
- the classifier;
- the language-model client, one reply oracle per request kind;
- the JSON decoder;
- the wiki;
- the page-view provider;
- the current day.

A raised exception is modelled as a reply value. `Strings` holds the Python `str` operations the code relies on:
- `isspace`;
- `strip`, and `strip(chars)`;
- `split()` and `join`;
- ASCII `lower` and `capitalize`;
- slicing;
- code-point ordering.

The NFKD decomposition is an oracle. Two facts about it are assumed, in `TextUtils.IsDecomposition`:
- ASCII text is its own decomposition.
- Decomposition distributes over concatenation when one side is ASCII. ASCII characters are starters, so canonical reordering never crosses them.

Behaviour of the code that the model keeps, and that a reader might not expect:
- **The merge keeps the last spelling of a key.** `combined_entities[key] = entity` overwrites an earlier entry, so "Paris" followed by "PARIS" yields "PARIS" (`App.LastSpellingWins`).
- **An entity whose title-casing is empty keeps the empty title.** For example, a whitespace-only entity is looked up under "".
- **A record can read "found" while holding an error, or while its length is unknown.** `_populate_from_page` marks the record found before reading `page.text`. If that read raises, the handler adds an error message but `found` stays true, and the status column shows "✓ Found".
- **Structured pairs are checked only for the presence of both keys.** An empty or non-string question or answer passes validation.

## Model

| member | source | states |
|---|---|---|
| TextUtils.NormalizeText | utils/text_utils.py:7-18 | Empty text gives empty text; the key is pure ASCII, has no upper-case letter and no whitespace at either end; text whose decomposition holds no ASCII character folds to "" |
| TextUtils.NormalizeIdempotent | utils/text_utils.py:12-18 | Normalising a key again leaves it unchanged, so a stored key is its own key |
| TextUtils.NormalizeIgnoresCase | utils/text_utils.py:12-18 | Two ASCII spellings that lower-case alike have the same key |
| TextUtils.NormalizeDropsMarks | utils/text_utils.py:13-15 | A text and the ASCII residue of its decomposition have the same key, so spellings differing only in combining marks or compatibility forms fold together |
| TextUtils.NormalizeIgnoresSurroundingSpace | utils/text_utils.py:12-18 | Surrounding ASCII whitespace does not change the key |
| TextUtils.InListCaseInsensitive | utils/text_utils.py:20-23 | True exactly when some list element has the item's key; an exact member is always found; an empty list never matches |
| TextUtils.AsciiOnly | utils/text_utils.py:14-15 | The ASCII encoding with errors ignored is pure ASCII, leaves ASCII text unchanged and reduces text with no ASCII character to ""; with `TextUtils.AsciiOnlyAppend` this fixes it as a character-by-character filter |
| TextUtils.AsciiOnlyAppend | utils/text_utils.py:14-15 | The filter distributes over concatenation, so each character is kept or dropped on its own and the kept ones stay in order |
| TextUtils.Capwords | utils/text_utils.py:29 | Splitting the output of `capwords(s)` again gives exactly the input's words, each capitalised, and the output is single-spaced with no outer whitespace |
| TextUtils.MinorOfCapitalized | utils/text_utils.py:44-46 | Lower-casing the minor words after the first among capitalised words gives each input word's title form |
| TextUtils.ToTitleCase | utils/text_utils.py:25-47 | The result's words are the input's words in title form, word for word: capitalised, with a minor word after the first lower-cased; they are separated by single spaces with no outer whitespace; empty stays empty |
| TextUtils.ToTitleCaseIs | utils/text_utils.py:27-47 | A non-empty input's title is the title forms of its words joined by single spaces, an independent statement of the capwords/split/join pipeline |
| TextUtils.TitleCaseIdempotent | utils/text_utils.py:25-47 | Title-casing a title gives the same title |
| Strings.SplitJoin | utils/text_utils.py:43-47 | Joining words with single spaces and splitting again gives back the words |
| Strings.StripBy | utils/nlp_utils.py:30 | `strip`: the result is the input minus a prefix and a suffix of stripped characters, and neither of its ends is a stripped character |
| Strings.StripByIdempotent | utils/nlp_utils.py:30 | Stripping twice is stripping once |
| Sorting.SortByCorrect | app.py:104 | The stable sort orders by key and keeps, for every key, the elements with that key in their original order |
| Sorting.SortByLowerCorrect | app.py:104 | `sorted(key=str.lower)` is ordered by lower-cased form, a stable permutation, and keeps distinct keys distinct |
| NlpUtils.Collect | utils/nlp_utils.py:26-33 | The loop's set holds exactly the non-empty stripped texts of allow-listed spans, without repetition |
| NlpUtils.ExtractEntities | utils/nlp_utils.py:21-33 | Empty text gives no entities; otherwise exactly the distinct non-empty stripped texts of spans with an allow-listed label, each free of surrounding whitespace |
| NlpUtils.SurvivesAsIs | utils/nlp_utils.py:27-32 | An allow-listed span whose text has no surrounding whitespace is extracted unchanged |
| NlpUtils.ExactDeduplication | utils/nlp_utils.py:26-32 | Deduplication is exact: two allow-listed spellings that differ in any way, case included, are both kept |
| LlmUtils.ExtractJsonArray | utils/llm_utils.py:49-51 | When the anchored bracket pattern matches, the result is its group; a result is only ever returned for a match |
| LlmUtils.PairsOf | utils/llm_utils.py:55-62 | A validated list yields its objects in order, each holding "question" and "answer" |
| LlmUtils.StructureQaPairs | utils/llm_utils.py:22-86 | Whitespace-only input gives no pairs without a request; otherwise pairs come back exactly when the reply holds an anchored array that decodes to a list of objects with both keys, and they are that list's objects; an API error, an unexpected error, a reply without an anchored array, an undecodable array and a list of the wrong shape each give their own failure, carrying the message or reply |
| LlmUtils.StripThenUnquote | utils/llm_utils.py:131-133 | Stripping whitespace and then quotes takes off a frame made of whitespace and quotes only |
| LlmUtils.Unquote | utils/llm_utils.py:131-133 | The cleaned reply is the whitespace-stripped reply with a frame of quotes cut off, and it neither begins nor ends with a quote, which fixes it as `strip()` followed by `strip('"\'')`; it is also the reply minus a frame of whitespace and quotes, and is empty only when the reply is all whitespace and quotes |
| LlmUtils.UnquoteKeepsInnerSpace | utils/llm_utils.py:131-133 | Because whitespace is stripped before quotes, the reply `' a'` cleans to " a", keeping the space inside the quotes |
| LlmUtils.IdentifyMainTopic | utils/llm_utils.py:125-140 | For a text reply, the topic is present exactly when the cleaned reply (whitespace, then quotes, stripped) is non-empty, and is then that cleaned reply; a failed request gives none |
| LlmUtils.ResolveDisambiguation | utils/llm_utils.py:143-177 | No client or no candidates gives none; an accepted title is a non-empty member of the full candidate list other than "NONE", cleaned from the reply to a prompt listing the first fifteen candidates; every such reply is accepted |
| LlmUtils.OnlyShownOptionsReachModel | utils/llm_utils.py:153 | Only the first fifteen candidates are shown to the model: candidate lists that agree on those and on membership resolve to the same title |
| WikiUtils.FetchPageViews | utils/wiki_utils.py:47-64 | The window runs from `days` before today to today; the daily counts are summed, the zero-views signal counts as 0, and any other failure becomes the pageview error message |
| WikiUtils.Populate | utils/wiki_utils.py:66-77 | The record is marked found under the canonical title; length and URL are taken when both can be read; a page-view failure leaves views empty and keeps an earlier error; a failing read stops the update where it happened |
| WikiUtils.FirstError | utils/wiki_utils.py:77 | `error or message`: an earlier non-empty error is kept, otherwise the page-view message is taken; the result is non-empty exactly when one of the two is |
| WikiUtils.Options | utils/wiki_utils.py:92-94 | The candidates are the page's links, or the single synthetic title when it has none; never empty |
| WikiUtils.Land | utils/wiki_utils.py:79-133 | A missing page lands as not found and an article as itself; a disambiguation page lands on the model's choice only when the choice exists and is an article, is left unresolved when the model declines or the choice is missing or not an article, and is a resolution failure when reading the choice raises; a raise from the lookup, from the page's categories, or from a disambiguation page's links is an unexpected failure with that message |
| WikiUtils.DisambiguationMessage | utils/wiki_utils.py:120-123 | The unresolved-disambiguation error starts with "Disambiguation: ", the title and ". Options: ", and ends with "..."; between them stand the first five candidates in order, joined by ", ", so each of them occurs in the message; with no options it is exactly that frame |
| WikiUtils.Settle | utils/wiki_utils.py:66-137 | Populating from a page yields a found record with the page's canonical title; the length is the text length when it can be read; URL and views need the length and URL reads to succeed, and views also need the page-view fetch to succeed; the error is the handler's message for the first raising read (the outer handler for the title's own page, the resolution handler for a chosen page), else the page-view message |
| WikiUtils.Report | utils/wiki_utils.py:101-137 | Only a landing on a page marks the record found; every other landing keeps the processed title, no data and its own error message (not found, unexpected error, the disambiguation message, the resolution error); a landing on a page records that page's length, URL and page views, with an interrupted read reported as an unexpected error for the title's own page and as a resolution error for a chosen page |
| WikiUtils.GetWikipediaData | utils/wiki_utils.py:27-137 | The lookup uses the title-cased name; a record not found carries that name, no data and an error; a missing page, a raising lookup and raising categories each give their message; an article reached directly is recorded with its length, URL and views; any found record is that article's record or the record of the article the model chose among the disambiguation options; views imply length and URL, and a found record without error has all three |
| App.IncludeAnswer | app.py:84-87 | The literal answer is appended exactly when it is non-empty and no entity has its key; afterwards some candidate has the answer's key |
| App.Candidates | app.py:99-101 | The loop visits the answer-side entities, then the question entities, then the topic when there is one; it visits exactly their elements and nothing else |
| App.QuestionEntities | app.py:89-92 | The question's entities when the toggle is on, none otherwise; never an empty string |
| Merge.Assign | app.py:102 | Dictionary assignment: the key now maps to the new spelling, other entries stay, and keys stay distinct |
| Merge.LastOfKey | app.py:99-102 | A non-empty candidate with the key, after which no non-empty candidate has that key, so the last one; none exactly when no non-empty candidate has that key |
| Merge.Combine | app.py:98-102 | After the loop the dictionary has one entry per key of a non-empty candidate, holding the last candidate spelled with that key |
| Merge.MergeEntities | app.py:98-104 | The merged list is sorted by lower-cased form, has no two entries with one key, and holds exactly the last spelling of every key of a non-empty candidate |
| Merge.MergeCoversCandidates | app.py:98-104 | Every non-empty candidate's key is represented in the merged list |
| Merge.MergeFromCandidates | app.py:98-104 | Every merged entry is a non-empty candidate |
| Merge.MergeOfSources | app.py:98-108 | Merging the three candidate lists: entries come from them, every candidate's key is represented, and the result is empty exactly when there are no candidates |
| Merge.MergeEmpty | app.py:101-108 | Without empty candidates, the merged list is empty exactly when there are no candidates, which is when the no-entities notice is shown |
| Merge.LastSpellingWins | app.py:99-102 | Of two different spellings with one key, only the later is kept |
| App.LastSpellingWins | app.py:97-104 | Under `normalize_text`, "Paris" then "PARIS" merge to "PARIS" |
| App.MergeCandidates | app.py:84-108 | Each merged entry is an answer entity, the answer, a question entity or the topic; the answer's and the topic's keys are represented; the merge is empty exactly when answer, question entities and topic are all absent |
| App.PairEntities | app.py:84-104 | The entities looked up for a pair are sorted, one per key, drawn from the pair's candidates, include the answer's and topic's keys, and are empty exactly when the answer is empty, no topic is named and no question entity is used |
| App.LookUp | app.py:113-116 | Each entity is looked up under its title-cased name with the analyser's client and the 365-day window: a record not found has that name, no data and an error; a directly reached article is recorded with its data; a found record is that article or the one the model chose |
| App.Tabulate | app.py:112-142 | One lookup per entity in order, with the analyser's client and the 365-day window, and one row per lookup; the table is never empty |
| App.AnalysePair | app.py:84-142 | A pair with no entities gives the notice; otherwise the table for the merged entities, never empty |
| App.AnalysePairs | app.py:73-117 | The pairs are analysed in order, each report from that pair's question and answer; the loop stops at the first pair whose question or answer is not a string |
| App.AnalyseRun | app.py:59-184 | Empty input is refused before any request; a structuring failure or an empty pair list ends the run with its notice; otherwise the run's reports are those of the pair loop |
| Display.Status | app.py:124-130 | "✓ Found" exactly when the record is found; otherwise the error after a cross when there is a non-empty one, and "✗ Not Found" when not |
| Display.FormatGrouped | app.py:140-141 | `f"{n:,}"` is non-empty, starts with a minus exactly for negative numbers, and holds only digits, commas and the sign |
| Display.FormatGroupedShape | app.py:140-141 | Past the sign, the row's hidden grouped string is the magnitude's decimal digits with a comma in every fourth place counted from the right |
| Display.FormatGroupedRoundTrip | app.py:140-141 | Removing the commas from the grouped string and parsing gives the number back |
| Display.DisplayString | app.py:140-141 | The row's hidden display string of a number is "N/A" exactly when the number is missing, and otherwise its grouped form |
| Display.ToRow | app.py:131-141 | The row carries the record's title, URL, raw views and length, its status text, and hidden display strings that are "N/A" exactly for the missing numbers and the grouped form otherwise |

## Left out

- The user interface is not modelled: the Streamlit widgets, spinners, expanders, warnings and error banners, and the data frame and its column configuration (app.py:1-57, 68-80, 110, 144-181). The table displays the raw views and length with the `%d` number format; the grouped display strings stay in hidden columns. The model records which notice or failure a run ends with, not its wording.
- `st.cache_data` and `st.cache_resource` caching is not modelled. Each cached call is a pure function of its arguments.
- The prompt texts and model names are not modelled. The client oracles receive only the parts of each prompt that vary between calls.
- Loading the spaCy model and the API key is not modelled. The classifier is a parameter, and the analyser always has a client (the `client` condition of app.py:59).
- `json.loads` is the decoder oracle `JsonDecoder`. JSON's own grammar is not modelled.
- `datetime.now()` is the day-number parameter `today`. `strftime` date formatting and the provider's query arguments other than title and window are left out.
- The network is not modelled: the wiki, the page-view provider and the language model are oracles. Page-view items are modelled as integer counts, so a non-integer `views` field is not represented.
- NlpUtils.ExtractEntities: returns the set's elements in first-occurrence order. Python's `list(set)` order is unspecified, and the merge's last-spelling rule depends on that order.
- App.AnalysePairs: a pair whose question or answer is not a JSON string halts the run. Python fails there only for some such values, for example when slicing a number for the expander title. It carries on with others, such as a list question or a null answer.
- App.Tabulate: the branch for an empty table (app.py:180-181) cannot be reached, because the merged entity list is non-empty there. The contract states that the table is never empty.
- TextUtils.Capwords: capitalisation is ASCII-only, so `Capwords("élan")` is "élan", where Python's `string.capwords("élan")` gives "Élan". Words and spacing are exact.
- TextUtils.ToTitleCase: capitalisation is ASCII-only, so "élan" stays "élan", where Python's `capwords` gives "Élan". The word-by-word title form is proved for the ASCII mapping only.
- Sorting.SortByLowerCorrect: the sort key is ASCII-only `lower`, so ["Émile", "ébène"] stays in that order, where Python's `sorted(key=str.lower)` gives ["ébène", "Émile"]. Non-ASCII capitals are compared by code point unlowered.
- Merge.MergeEntities: the order of the merged list inherits the ASCII-only sort key of `Sorting.SortByLowerCorrect`; which spellings survive is exact.
- App.PairEntities: the order of a pair's entities inherits the ASCII-only sort key of `Sorting.SortByLowerCorrect`; which entities are looked up is exact.
- TextUtils.TitleCaseIdempotent: case mapping is ASCII-only in `Strings`. Python's full Unicode `lower`, `upper` and `capitalize` are not modelled, and for some characters (U+0149, for example) `capitalize` is not idempotent. The title-case and case-folding properties are proved for the ASCII mapping only. `normalize_text` lower-cases only ASCII text, so its model is exact.
- TextUtils.NormalizeText: the NFKD decomposition is an oracle. The properties that need it assume only the two facts of `IsDecomposition`.
- Disambiguation is followed one level deep, as in the source: a choice that is itself a disambiguation page is reported as unresolved.
- Strings.IsSpace: the regular-expression class `\s` and `str.isspace` are taken to be the same Unicode whitespace set.

=== FILE: app.dfy ===
/** The analyser's pipeline (app.py): structure the pasted text into pairs,
    collect each pair's candidate entities, merge spellings that share a
    normalised key, sort, resolve each entity on Wikipedia and lay out the
    result rows. */
module App {
  import opened Wrappers
  import opened Strings
  import opened TextUtils
  import NlpUtils
  import LlmUtils
  import WikiUtils
  import Config
  import Sorting
  import Merge
  import Display

  /** The outside services the analyser runs against. */
  datatype Services = Services(
    nfkd: Decomposition,
    classify: NlpUtils.Classifier,
    client: LlmUtils.Client,
    decode: LlmUtils.JsonDecoder,
    wiki: WikiUtils.Wiki,
    pageviews: WikiUtils.Pageviews,
    today: int)

  // ---------------------------------------------------------------------------
  // candidates

  /** The answer's entities with the literal answer appended when it is
      non-empty and no entity already has its key. */
  function IncludeAnswer(nfkd: Decomposition, entities: seq<string>, answer: string): (r: seq<string>)
    ensures entities <= r && |r| <= |entities| + 1
    ensures |r| > |entities| <==> answer != [] && !InListCaseInsensitive(nfkd, answer, entities)
    ensures |r| > |entities| ==> r[|r| - 1] == answer
    ensures forall x :: x in r ==> x in entities || (x == answer && answer != [])
    ensures answer != [] ==> exists i :: 0 <= i < |r| && NormalizeText(nfkd, r[i]) == NormalizeText(nfkd, answer)
  {
    var missing := answer != [] && !InListCaseInsensitive(nfkd, answer, entities);
    var r := if missing then entities + [answer] else entities;
    assert answer != [] ==> exists i :: 0 <= i < |r| && NormalizeText(nfkd, r[i]) == NormalizeText(nfkd, answer) by {
      if answer != [] {
        if missing {
          assert r[|entities|] == answer;
        } else {
          var i :| 0 <= i < |entities| && NormalizeText(nfkd, entities[i]) == NormalizeText(nfkd, answer);
          assert r[i] == entities[i];
        }
      }
    }
    r
  }

  /** The question's entities when the toggle is on; none otherwise. */
  function QuestionEntities(classify: NlpUtils.Classifier, includeQuestion: bool, question: string): (r: seq<string>)
    ensures forall x :: x in r ==> x != []
    ensures includeQuestion ==> r == NlpUtils.ExtractEntities(classify, question)
    ensures !includeQuestion ==> r == []
  {
    if includeQuestion then NlpUtils.ExtractEntities(classify, question) else []
  }

  /** The candidates in the order the merge loop visits them: answer
      entities, question entities, then the topic. A `None` topic is skipped
      by the loop's truthiness test, so it contributes nothing here. */
  function Candidates(answerEntities: seq<string>, questionEntities: seq<string>, topic: Option<string>): (r: seq<string>)
    ensures |r| == |answerEntities| + |questionEntities| + (if topic.Some? then 1 else 0)
    ensures r[..|answerEntities|] == answerEntities
    ensures r[|answerEntities|..|answerEntities| + |questionEntities|] == questionEntities
    ensures forall x :: x in r <==> x in answerEntities || x in questionEntities || topic == Some(x)
  {
    answerEntities + questionEntities + (if topic.Some? then [topic.value] else [])
  }

  /** The merge key: `normalize_text` under the given decomposition. */
  function NormKey(nfkd: Decomposition): string -> string {
    s => NormalizeText(nfkd, s)
  }

  /** The last spelling wins: "Paris" followed by "PARIS" merges to "PARIS". */
  lemma LastSpellingWins(nfkd: Decomposition)
    requires IsDecomposition(nfkd)
    ensures Merge.MergeEntities(NormKey(nfkd), ["Paris", "PARIS"]) == ["PARIS"]
  {
    assert Lower("Paris") == Lower("PARIS");
    NormalizeIgnoresCase(nfkd, "Paris", "PARIS");
    Merge.LastSpellingWins(NormKey(nfkd), "Paris", "PARIS");
  }

  // ---------------------------------------------------------------------------
  // one pair

  /** Merging one pair's candidates, where the answer-side candidates `ae`
      are entities `es` of the answer with possibly the answer itself: every
      result is one of the entities, the answer, a question entity or the
      topic; the answer's and the topic's keys are represented; and the result
      is empty exactly when there is no answer, no question entity and no
      topic. */
  lemma MergeCandidates(norm: string -> string, es: seq<string>, answer: string, ae: seq<string>,
                        qe: seq<string>, topic: Option<string>)
    requires forall x :: x in ae ==> x != [] && (x in es || x == answer)
    requires answer != [] ==> exists i :: 0 <= i < |ae| && norm(ae[i]) == norm(answer)
    requires ae == [] <==> answer == []
    requires forall x :: x in qe ==> x != []
    requires topic.Some? ==> topic.value != []
    ensures var r := Merge.MergeEntities(norm, Candidates(ae, qe, topic));
            && (forall i :: 0 <= i < |r| ==> r[i] in es || r[i] == answer || r[i] in qe || topic == Some(r[i]))
            && (answer != [] ==> exists i :: 0 <= i < |r| && norm(r[i]) == norm(answer))
            && (topic.Some? ==> exists i :: 0 <= i < |r| && norm(r[i]) == norm(topic.value))
            && (r == [] <==> answer == [] && qe == [] && topic.None?)
  {
    var tl := if topic.Some? then [topic.value] else [];
    Merge.MergeOfSources(norm, ae, qe, tl);
    var r := Merge.MergeEntities(norm, ae + qe + tl);
    if answer != [] {
      var i :| 0 <= i < |ae| && norm(ae[i]) == norm(answer);
      assert ae[i] in ae + qe + tl;
    }
    assert topic.Some? ==> topic.value in ae + qe + tl;
  }

  /** The entities looked up for one pair: sorted, one per key, each an
      extracted entity, the answer itself or the topic, with the answer's and
      the topic's keys always represented. */
  function PairEntities(svc: Services, includeQuestion: bool, question: string, answer: string): (r: seq<string>)
    ensures Sorting.Sorted(r)
    ensures forall i, j :: 0 <= i < j < |r| ==> NormKey(svc.nfkd)(r[i]) != NormKey(svc.nfkd)(r[j])
    ensures forall i :: 0 <= i < |r| ==>
              || r[i] in NlpUtils.ExtractEntities(svc.classify, answer)
              || r[i] == answer
              || r[i] in QuestionEntities(svc.classify, includeQuestion, question)
              || LlmUtils.IdentifyMainTopic(svc.client, question, answer) == Some(r[i])
    ensures answer != [] ==>
              exists i :: 0 <= i < |r| && NormKey(svc.nfkd)(r[i]) == NormKey(svc.nfkd)(answer)
    ensures LlmUtils.IdentifyMainTopic(svc.client, question, answer).Some? ==>
              exists i :: 0 <= i < |r| &&
                NormKey(svc.nfkd)(r[i]) == NormKey(svc.nfkd)(LlmUtils.IdentifyMainTopic(svc.client, question, answer).value)
    ensures r == [] <==>
              && answer == []
              && LlmUtils.IdentifyMainTopic(svc.client, question, answer).None?
              && (includeQuestion ==> NlpUtils.ExtractEntities(svc.classify, question) == [])
  {
    var norm := NormKey(svc.nfkd);
    var es := NlpUtils.ExtractEntities(svc.classify, answer);
    var ae := IncludeAnswer(svc.nfkd, es, answer);
    var qe := QuestionEntities(svc.classify, includeQuestion, question);
    var topic := LlmUtils.IdentifyMainTopic(svc.client, question, answer);
    MergeCandidates(norm, es, answer, ae, qe, topic);
    var r := Merge.MergeEntities(norm, Candidates(ae, qe, topic));
    r
  }

  /** One call of `get_wikipedia_data` as the analyser makes it: with the
      client and the default page-view window. */
  function LookUp(svc: Services, entity: string, question: string, answer: string): (r: WikiUtils.WikiResult)
    ensures !r.found ==>
              && r.title == ToTitleCase(entity)
              && r.length == None && r.views == None && r.url == None && r.error.Some?
    ensures svc.wiki(ToTitleCase(entity)).Exists? && WikiUtils.IsArticle(svc.wiki(ToTitleCase(entity)).page) ==>
              WikiUtils.RecordsPage(r, svc.wiki(ToTitleCase(entity)).page, svc.pageviews, svc.today,
                                    Config.DefaultViewsDays, None)
    ensures r.found ==>
              || (svc.wiki(ToTitleCase(entity)).Exists? && WikiUtils.IsArticle(svc.wiki(ToTitleCase(entity)).page))
              || WikiUtils.RecordsChoice(r, svc.wiki, svc.pageviews, Some(svc.client), svc.today, ToTitleCase(entity),
                                         question, answer, Config.DefaultViewsDays)
  {
    WikiUtils.GetWikipediaData(svc.wiki, svc.pageviews, Some(svc.client), svc.today, entity, question, answer,
                               Config.DefaultViewsDays)
  }

  /** What the analyser shows for one pair. */
  datatype PairReport =
    | NoEntities
    | Stats(entities: seq<string>, results: seq<WikiUtils.WikiResult>, rows: seq<Display.Row>)

  /** The table for a non-empty entity list: one lookup and one row per
      entity, in the given order. */
  function Tabulate(svc: Services, question: string, answer: string, entities: seq<string>): (p: PairReport)
    requires entities != []
    ensures p.Stats? && p.entities == entities
    ensures |p.results| == |entities| && |p.rows| == |entities| && p.rows != []
    ensures forall i :: 0 <= i < |entities| ==>
              && p.results[i] == LookUp(svc, entities[i], question, answer)
              && p.rows[i] == Display.ToRow(p.results[i])
  {
    var results := seq(|entities|, i requires 0 <= i < |entities| => LookUp(svc, entities[i], question, answer));
    var rows := seq(|results|, i requires 0 <= i < |results| => Display.ToRow(results[i]));
    Stats(entities, results, rows)
  }

  /** One pair: no entities gives the notice; otherwise one lookup and one
      row per entity, in the merged order, and never an empty table. */
  function AnalysePair(svc: Services, includeQuestion: bool, question: string, answer: string): (p: PairReport)
    ensures p.NoEntities? <==> PairEntities(svc, includeQuestion, question, answer) == []
    ensures p.Stats? ==>
              && p.entities == PairEntities(svc, includeQuestion, question, answer)
              && |p.results| == |p.entities| && |p.rows| == |p.entities| && p.rows != []
              && forall i :: 0 <= i < |p.entities| ==>
                   && p.results[i] == LookUp(svc, p.entities[i], question, answer)
                   && p.rows[i] == Display.ToRow(p.results[i])
  {
    var entities := PairEntities(svc, includeQuestion, question, answer);
    if entities == [] then NoEntities else Tabulate(svc, question, answer, entities)
  }

  // ---------------------------------------------------------------------------
  // one run

  /** A structured pair whose question and answer are JSON strings. */
  predicate StringPair(p: LlmUtils.PairObject) {
    && "question" in p && "answer" in p
    && p["question"].JString? && p["answer"].JString?
  }

  /** What a press of the analyse button produces. */
  datatype RunOutcome =
    | EmptyInput                                          // nothing pasted
    | StructuringFailed(failure: LlmUtils.StructuringFailure)
    | NoPairs                                             // structured, but no pairs
    | Analysed(reports: seq<PairReport>)
    | Halted(reports: seq<PairReport>)                    // a pair value was not a string

  /** The analysis of one pair from its question and answer. */
  function PairAnalyser(svc: Services, includeQuestion: bool): (string, string) -> PairReport {
    (question, answer) => AnalysePair(svc, includeQuestion, question, answer)
  }

  /** The reports of the first pairs, all string pairs, each analysed by `analyse`. */
  predicate ReportsFor(analyse: (string, string) -> PairReport, pairs: seq<LlmUtils.PairObject>,
                       reports: seq<PairReport>)
  {
    && |reports| <= |pairs|
    && forall k :: 0 <= k < |reports| ==>
         && StringPair(pairs[k])
         && reports[k] == analyse(pairs[k]["question"].s, pairs[k]["answer"].s)
  }

  /** The loop over the structured pairs: each string pair is analysed in
      order; a pair whose question or answer is not a string stops the run. */
  method AnalysePairs(analyse: (string, string) -> PairReport, pairs: seq<LlmUtils.PairObject>)
    returns (outcome: RunOutcome)
    ensures outcome.Analysed? || outcome.Halted?
    ensures outcome.Analysed? ==> |outcome.reports| == |pairs| && ReportsFor(analyse, pairs, outcome.reports)
    ensures outcome.Halted? ==>
              && |outcome.reports| < |pairs|
              && ReportsFor(analyse, pairs, outcome.reports)
              && !StringPair(pairs[|outcome.reports|])
  {
    var reports: seq<PairReport> := [];
    var i := 0;
    while i < |pairs|
      invariant 0 <= i <= |pairs|
      invariant |reports| == i
      invariant ReportsFor(analyse, pairs, reports)
    {
      var pair := pairs[i];
      if !StringPair(pair) {
        return Halted(reports);
      }
      reports := reports + [analyse(pair["question"].s, pair["answer"].s)];
      i := i + 1;
    }
    return Analysed(reports);
  }

  /** The analysis run: empty input is refused before any request; a
      structuring failure or an empty pair list ends the run with its notice;
      otherwise every pair is analysed in order. */
  method AnalyseRun(svc: Services, includeQuestion: bool, rawText: string) returns (outcome: RunOutcome)
    ensures rawText == [] <==> outcome == EmptyInput
    ensures rawText != [] ==>
              match LlmUtils.StructureQaPairs(svc.client, svc.decode, rawText)
              case Err(f) => outcome == StructuringFailed(f)
              case Ok(pairs) =>
                && (pairs == [] <==> outcome == NoPairs)
                && (outcome.Analysed? || outcome.Halted? || outcome == NoPairs)
                && (outcome.Analysed? ==>
                      |outcome.reports| == |pairs| && ReportsFor(PairAnalyser(svc, includeQuestion), pairs, outcome.reports))
                && (outcome.Halted? ==>
                      && |outcome.reports| < |pairs|
                      && ReportsFor(PairAnalyser(svc, includeQuestion), pairs, outcome.reports)
                      && !StringPair(pairs[|outcome.reports|]))
  {
    if rawText == [] {
      return EmptyInput;
    }
    var structured := LlmUtils.StructureQaPairs(svc.client, svc.decode, rawText);
    if structured.Err? {
      return StructuringFailed(structured.error);
    }
    var pairs := structured.value;
    if pairs == [] {
      return NoPairs;
    }
    outcome := AnalysePairs(PairAnalyser(svc, includeQuestion), pairs);
  }
}

=== FILE: config.dfy ===
/** The two configuration constants the core uses (utils/config.py). */
module Config {

  /** Length of the trailing page-view window, in days. */
  const DefaultViewsDays: int := 365

  /** Named-entity labels whose spans are kept. */
  const EntityTypesToKeep: set<string> :=
    {"PERSON", "ORG", "LOC", "GPE", "FAC", "PRODUCT", "EVENT", "WORK_OF_ART", "NORP", "LAW"}
}

=== FILE: display.dfy ===
/** The per-entity table row of the analyser's results (app.py): the status
    text, the raw numbers the table displays, and the thousands-grouped
    display strings for views and length that the row also carries in columns
    the table hides. */
module Display {
  import opened Wrappers
  import WikiUtils

  // ---------------------------------------------------------------------------
  // status

  const FoundStatus: string := "\U{2713} Found"

  const NotFoundStatus: string := "\U{2717} Not Found"

  /** A found record reads as found whatever its error; otherwise a non-empty
      error is shown after the cross, and the generic text stands in for a
      missing or empty one. */
  function Status(r: WikiUtils.WikiResult): (s: string)
    ensures r.found <==> s == FoundStatus
    ensures !r.found && r.error.Some? && r.error.value != [] ==> s == "\U{2717} " + r.error.value
    ensures !r.found && (r.error.None? || r.error.value == []) ==> s == NotFoundStatus
  {
    if r.found then FoundStatus
    else if r.error.Some? && r.error.value != [] then
      assert ("\U{2717} " + r.error.value)[0] != FoundStatus[0];
      "\U{2717} " + r.error.value
    else NotFoundStatus
  }

  // ---------------------------------------------------------------------------
  // f"{n:,}"

  predicate IsDigit(c: char) {
    '0' <= c <= '9'
  }

  function DigitChar(d: nat): char
    requires d < 10
  {
    ['0', '1', '2', '3', '4', '5', '6', '7', '8', '9'][d]
  }

  function DigitValue(c: char): nat
    requires IsDigit(c)
  {
    (c as int - '0' as int) as nat
  }

  /** The decimal numeral of `n`, without leading zeros. */
  function Digits(n: nat): (ds: string)
    ensures ds != []
    ensures forall k :: 0 <= k < |ds| ==> IsDigit(ds[k])
    ensures ds[0] == '0' ==> n == 0
  {
    if n < 10 then [DigitChar(n)] else Digits(n / 10) + [DigitChar(n % 10)]
  }

  /** Reading a numeral back. */
  function ParseDigits(ds: string): nat
    requires forall k :: 0 <= k < |ds| ==> IsDigit(ds[k])
  {
    if ds == [] then 0 else ParseDigits(ds[..|ds| - 1]) * 10 + DigitValue(ds[|ds| - 1])
  }

  lemma {:induction false} DigitsRoundTrip(n: nat)
    ensures ParseDigits(Digits(n)) == n
  {
    if n >= 10 {
      DigitsRoundTrip(n / 10);
      var ds := Digits(n);
      assert ds[..|ds| - 1] == Digits(n / 10);
    }
  }

  /** A comma or a digit: the characters of a grouped numeral. */
  predicate IsGroupChar(c: char) {
    c == ',' || IsDigit(c)
  }

  lemma AppendGroupChars(a: string, b: string)
    requires forall k :: 0 <= k < |a| ==> IsGroupChar(a[k])
    requires forall k :: 0 <= k < |b| ==> IsGroupChar(b[k])
    ensures forall k :: 0 <= k < |a + b| ==> IsGroupChar((a + b)[k])
  {
    forall k | 0 <= k < |a + b|
      ensures IsGroupChar((a + b)[k])
    {
      if k >= |a| {
        assert (a + b)[k] == b[k - |a|];
      }
    }
  }

  /** Commas every three digits from the right. */
  function Group(ds: string): (r: string)
    requires ds != []
    requires forall k :: 0 <= k < |ds| ==> IsDigit(ds[k])
    ensures |r| == |ds| + (|ds| - 1) / 3
    ensures forall k :: 0 <= k < |r| ==> IsGroupChar(r[k])
    ensures IsDigit(r[0])
    decreases |ds|
  {
    if |ds| <= 3 then ds
    else
      var init := ds[..|ds| - 3];
      var tail := ds[|ds| - 3..];
      assert forall k :: 0 <= k < |init| ==> init[k] == ds[k];
      assert forall k :: 0 <= k < |tail| ==> tail[k] == ds[|ds| - 3 + k];
      var head := Group(init);
      assert (|ds| - 4) / 3 + 1 == (|ds| - 1) / 3;
      AppendGroupChars(head, ",");
      AppendGroupChars(head + ",", tail);
      assert (head + "," + tail)[0] == head[0];
      head + "," + tail
  }

  /** A comma exactly where the position from the right is a multiple of four. */
  predicate CommasEveryFour(g: string) {
    forall k :: 0 <= k < |g| ==> (g[k] == ',' <==> (|g| - k) % 4 == 0)
  }

  /** One more group of three behind a correctly grouped numeral keeps the
      commas where the position from the right is a multiple of four. */
  lemma CommasAppend(h: string, t: string)
    requires |t| == 3 && forall k :: 0 <= k < 3 ==> IsDigit(t[k])
    requires CommasEveryFour(h)
    ensures CommasEveryFour(h + "," + t)
  {
    var r := h + "," + t;
    forall k | 0 <= k < |h| + 4
      ensures r[k] == ',' <==> (|h| + 4 - k) % 4 == 0
    {
      if k < |h| {
        assert r[k] == h[k];
        assert (|h| + 4 - k) % 4 == (|h| - k) % 4;
      } else if k > |h| {
        assert r[k] == t[k - |h| - 1];
      }
    }
  }

  /** The commas sit exactly where the position from the right is a multiple of four. */
  lemma {:induction false} GroupCommas(ds: string)
    requires ds != []
    requires forall k :: 0 <= k < |ds| ==> IsDigit(ds[k])
    ensures CommasEveryFour(Group(ds))
    decreases |ds|
  {
    if |ds| > 3 {
      var init := ds[..|ds| - 3];
      var tail := ds[|ds| - 3..];
      assert forall k :: 0 <= k < |init| ==> init[k] == ds[k];
      assert forall k :: 0 <= k < |tail| ==> tail[k] == ds[|ds| - 3 + k];
      GroupCommas(init);
      CommasAppend(Group(init), tail);
      assert Group(ds) == Group(init) + "," + tail;
    }
  }

  /** Removing the commas gives back the digits. */
  lemma {:induction false} GroupUngroup(ds: string)
    requires ds != []
    requires forall k :: 0 <= k < |ds| ==> IsDigit(ds[k])
    ensures Ungroup(Group(ds)) == ds
    decreases |ds|
  {
    if |ds| <= 3 {
      UngroupDigits(ds);
    } else {
      var init := ds[..|ds| - 3];
      var tail := ds[|ds| - 3..];
      assert forall k :: 0 <= k < |init| ==> init[k] == ds[k];
      assert forall k :: 0 <= k < |tail| ==> tail[k] == ds[|ds| - 3 + k];
      var head := Group(init);
      assert Group(ds) == head + "," + tail;
      GroupUngroup(init);
      UngroupDigits(tail);
      UngroupAppend(head + ",", tail);
      UngroupAppend(head, ",");
      UngroupComma();
      assert Ungroup(head + ",") == init;
      SplitAt(ds, |ds| - 3);
    }
  }

  lemma SplitAt(s: string, i: nat)
    requires i <= |s|
    ensures s[..i] + s[i..] == s
  {
  }

  lemma UngroupComma()
    ensures Ungroup(",") == []
  {
    assert ","[..0] == [];
  }

  /** The digits of a grouped numeral: the commas removed. */
  function Ungroup(s: string): string {
    if s == [] then [] else Ungroup(s[..|s| - 1]) + (if s[|s| - 1] == ',' then [] else [s[|s| - 1]])
  }

  lemma {:induction false} UngroupAppend(a: string, b: string)
    ensures Ungroup(a + b) == Ungroup(a) + Ungroup(b)
    decreases |b|
  {
    if b == [] {
      assert a + b == a;
    } else {
      var b' := b[..|b| - 1];
      assert (a + b)[..|a + b| - 1] == a + b';
      UngroupAppend(a, b');
    }
  }

  lemma {:induction false} UngroupDigits(ds: string)
    requires forall k :: 0 <= k < |ds| ==> IsDigit(ds[k])
    ensures Ungroup(ds) == ds
  {
    if ds != [] {
      UngroupDigits(ds[..|ds| - 1]);
    }
  }

  /** `f"{n:,}"` for a Python int: an optional minus sign, then the grouped
      decimal digits of the magnitude. */
  function FormatGrouped(n: int): (r: string)
    ensures r != []
    ensures (r[0] == '-') <==> n < 0
    ensures forall k :: 0 <= k < |r| ==> r[k] == '-' || r[k] == ',' || IsDigit(r[k])
  {
    if n < 0 then "-" + Group(Digits(-n)) else Group(Digits(n))
  }

  /** Past the sign, the grouped string is the magnitude's digits with a comma
      before every group of three counted from the right. */
  lemma FormatGroupedShape(n: int)
    ensures var r := FormatGrouped(n);
            var g := if n < 0 then r[1..] else r;
            && Ungroup(g) == Digits(if n < 0 then -n else n)
            && CommasEveryFour(g)
  {
    var m: nat := if n < 0 then -n else n;
    var r := FormatGrouped(n);
    var g := if n < 0 then r[1..] else r;
    assert g == Group(Digits(m)) by {
      if n < 0 {
        assert r == "-" + Group(Digits(m));
      }
    }
    GroupUngroup(Digits(m));
    GroupCommas(Digits(m));
  }

  /** Reading a grouped string back: drop the sign and the commas and parse. */
  function ReadGrouped(s: string): int
    requires forall k :: 0 <= k < |s| ==> s[k] == '-' || s[k] == ',' || IsDigit(s[k])
  {
    var magnitude: int := ParseGroupedMagnitude(if s != [] && s[0] == '-' then s[1..] else s);
    if s != [] && s[0] == '-' then -magnitude else magnitude
  }

  function ParseGroupedMagnitude(s: string): nat
    requires forall k :: 0 <= k < |s| ==> s[k] == '-' || s[k] == ',' || IsDigit(s[k])
  {
    if s == [] then 0
    else if IsDigit(s[|s| - 1]) then ParseGroupedMagnitude(s[..|s| - 1]) * 10 + DigitValue(s[|s| - 1])
    else ParseGroupedMagnitude(s[..|s| - 1])
  }

  /** Removing the commas from commas and digits leaves digits. */
  lemma {:induction false} UngroupIsDigits(s: string)
    requires forall k :: 0 <= k < |s| ==> s[k] == ',' || IsDigit(s[k])
    ensures forall k :: 0 <= k < |Ungroup(s)| ==> IsDigit(Ungroup(s)[k])
  {
    if s != [] {
      var s' := s[..|s| - 1];
      assert forall k :: 0 <= k < |s'| ==> s'[k] == s[k];
      UngroupIsDigits(s');
    }
  }

  lemma {:induction false} ParseGroupedMagnitudeIsParse(s: string)
    requires forall k :: 0 <= k < |s| ==> s[k] == ',' || IsDigit(s[k])
    ensures forall k :: 0 <= k < |Ungroup(s)| ==> IsDigit(Ungroup(s)[k])
    ensures ParseGroupedMagnitude(s) == ParseDigits(Ungroup(s))
  {
    UngroupIsDigits(s);
    if s != [] {
      var s' := s[..|s| - 1];
      var c := s[|s| - 1];
      assert forall k :: 0 <= k < |s'| ==> s'[k] == s[k];
      ParseGroupedMagnitudeIsParse(s');
      var u := Ungroup(s');
      assert s == s' + [c];
      UngroupAppend(s', [c]);
      if IsDigit(c) {
        assert Ungroup([c]) == [c];
        ParseDigitsSnoc(u, c);
        assert ParseGroupedMagnitude(s) == ParseGroupedMagnitude(s') * 10 + DigitValue(c);
      } else {
        assert Ungroup([c]) == [];
        assert Ungroup(s) == u;
        assert ParseGroupedMagnitude(s) == ParseGroupedMagnitude(s');
      }
    }
  }

  lemma ParseDigitsSnoc(u: string, c: char)
    requires forall k :: 0 <= k < |u| ==> IsDigit(u[k])
    requires IsDigit(c)
    ensures ParseDigits(u + [c]) == ParseDigits(u) * 10 + DigitValue(c)
  {
    assert (u + [c])[..|u|] == u;
  }

  /** The grouped string reads back as the number. */
  lemma FormatGroupedRoundTrip(n: int)
    ensures ReadGrouped(FormatGrouped(n)) == n
  {
    var m: nat := if n < 0 then -n else n;
    var g := Group(Digits(m));
    GroupUngroup(Digits(m));
    ParseGroupedMagnitudeIsParse(g);
    DigitsRoundTrip(m);
    if n < 0 {
      assert FormatGrouped(n)[1..] == g;
    }
  }

  // ---------------------------------------------------------------------------
  // the table row

  /** One row of the results data frame. The table displays the entity, URL,
      raw views, raw length and status; the two display strings are hidden. */
  datatype Row = Row(
    entity: string,
    url: Option<string>,
    views: Option<int>,
    length: Option<nat>,
    status: string,
    viewsDisplay: string,
    lengthDisplay: string)

  /** The hidden display string of a number: "N/A" when it is missing. */
  function DisplayString(n: Option<int>): (s: string)
    ensures n.None? <==> s == "N/A"
    ensures n.Some? ==> s == FormatGrouped(n.value)
  {
    match n
    case None => "N/A"
    case Some(v) =>
      var s := FormatGrouped(v);
      assert s[0] != "N/A"[0];
      s
  }

  function ToRow(r: WikiUtils.WikiResult): (row: Row)
    ensures row.entity == r.title && row.url == r.url && row.views == r.views && row.length == r.length
    ensures row.status == Status(r)
    ensures row.viewsDisplay == "N/A" <==> r.views.None?
    ensures row.lengthDisplay == "N/A" <==> r.length.None?
    ensures r.views.Some? ==> row.viewsDisplay == FormatGrouped(r.views.value)
    ensures r.length.Some? ==> row.lengthDisplay == FormatGrouped(r.length.value)
  {
    var length: Option<int> := if r.length.Some? then Some(r.length.value) else None;
    Row(r.title, r.url, r.views, r.length, Status(r), DisplayString(r.views), DisplayString(length))
  }
}

=== FILE: llm_utils.dfy ===
/** Post-processing of the three language-model requests: structuring free
    text into question/answer pairs, naming the key entity of a pair, and
    choosing among disambiguation candidates (utils/llm_utils.py). The model
    and the JSON decoder are oracles; exceptions are reply values. */
module LlmUtils {
  import opened Wrappers
  import opened Strings

  /** A decoded JSON value, as `json.loads` returns it. */
  datatype Json =
    | JNull
    | JBool(b: bool)
    | JNumber(literal: string)
    | JString(s: string)
    | JArray(items: seq<Json>)
    | JObject(fields: map<string, Json>)

  /** The JSON decoder: `None` stands for `json.JSONDecodeError`. */
  type JsonDecoder = string -> Option<Json>

  /** The outcome of one request to the language model: the text of the
      first content block, or the exception the request raised. */
  datatype Reply = Text(body: string) | ApiError(message: string) | Unexpected(message: string)

  /** The language-model client: one oracle per kind of request, each given
      the parts of the prompt that vary between calls. */
  datatype Client = Client(
    structure: string -> Reply,
    keyEntity: (string, string) -> Reply,
    choose: (string, seq<string>, string, string) -> Reply)

  /** A structured pair: the decoded object, holding both keys. */
  type PairObject = map<string, Json>

  /** Why structuring produced no list (the source returns `None` for all). */
  datatype StructuringFailure =
    | NoJsonArray(response: string)
    | InvalidJson(response: string)
    | NotPairList
    | ApiFailure(message: string)
    | UnexpectedFailure(message: string)

  // ---------------------------------------------------------------------------
  // structure_qa_pairs

  /** The pattern `^\s*(\[.*?\])\s*$` (dot matching newlines) matches
      `response` with group 1 spanning `response[i..j]`. */
  ghost predicate AnchoredArray(response: string, i: int, j: int) {
    && Framed(response, IsSpace, i, j)
    && j - i >= 2
    && response[i] == '['
    && response[j - 1] == ']'
  }

  /** The bracket test: group 1 of the anchored pattern, if it matches. The
      stripped response is the only candidate, so the lazy `.*?` and a greedy
      one agree. */
  function ExtractJsonArray(response: string): (r: Option<string>)
    ensures forall i, j :: AnchoredArray(response, i, j) ==> r == Some(response[i..j])
    ensures r.Some? ==> exists i, j :: AnchoredArray(response, i, j) && r.value == response[i..j]
  {
    var t := Strip(response);
    forall i, j | AnchoredArray(response, i, j)
      ensures Bracketed(t) && t == response[i..j]
    {
      AnchoredIsStripped(response, i, j);
    }
    if Bracketed(t) then
      StrippedIsAnchored(response);
      Some(t)
    else None
  }

  predicate Bracketed(t: string) {
    |t| >= 2 && t[0] == '[' && t[|t| - 1] == ']'
  }

  /** An anchored match spans exactly the stripped response. */
  lemma AnchoredIsStripped(response: string, i: int, j: int)
    requires AnchoredArray(response, i, j)
    ensures Bracketed(Strip(response)) && Strip(response) == response[i..j]
  {
    StripByIs(response, IsSpace, i, j);
  }

  /** A bracketed stripped response is an anchored match. */
  lemma StrippedIsAnchored(response: string)
    requires Bracketed(Strip(response))
    ensures exists i, j :: AnchoredArray(response, i, j) && Strip(response) == response[i..j]
  {
    var i, j :| Framed(response, IsSpace, i, j) && Strip(response) == response[i..j];
    assert AnchoredArray(response, i, j);
  }

  /** The validation of the decoded value: a list whose every item is an
      object with a "question" and an "answer" key. */
  predicate IsPairList(v: Json) {
    && v.JArray?
    && forall i :: 0 <= i < |v.items| ==>
         v.items[i].JObject? && "question" in v.items[i].fields && "answer" in v.items[i].fields
  }

  /** The objects of a validated list, in order. */
  function PairsOf(v: Json): (ps: seq<PairObject>)
    requires IsPairList(v)
    ensures |ps| == |v.items| && forall i :: 0 <= i < |ps| ==> ps[i] == v.items[i].fields
    ensures forall p :: p in ps ==> "question" in p && "answer" in p
  {
    seq(|v.items|, i requires 0 <= i < |v.items| => v.items[i].fields)
  }

  /** The decoded value of the structuring reply, when the reply passed the
      bracket test and decoded. */
  ghost function StructuringValue(client: Client, decode: JsonDecoder, text: string): Option<Json> {
    var reply := client.structure(text);
    if reply.Text? && ExtractJsonArray(reply.body).Some? then decode(ExtractJsonArray(reply.body).value)
    else None
  }

  /** `structure_qa_pairs`: whitespace-only input gives the empty list without
      a request; otherwise the pairs of a reply that passes the bracket test,
      decodes and validates, and a failure for anything else. An empty decoded
      list is a success, distinct from failure. */
  function StructureQaPairs(client: Client, decode: JsonDecoder, text: string): (r: Result<seq<PairObject>, StructuringFailure>)
    ensures All(text, IsSpace) ==> r == Ok([])
    ensures r.Ok? ==> forall p :: p in r.value ==> "question" in p && "answer" in p
    ensures !All(text, IsSpace) && r.Ok? ==>
              && client.structure(text).Text?
              && exists i, j :: AnchoredArray(client.structure(text).body, i, j)
    ensures !All(text, IsSpace) ==>
              (r.Ok? <==> StructuringValue(client, decode, text).Some? && IsPairList(StructuringValue(client, decode, text).value))
    ensures !All(text, IsSpace) && client.structure(text).ApiError? ==>
              r == Err(ApiFailure(client.structure(text).message))
    ensures !All(text, IsSpace) && client.structure(text).Unexpected? ==>
              r == Err(UnexpectedFailure(client.structure(text).message))
    ensures !All(text, IsSpace) && client.structure(text).Text? && ExtractJsonArray(client.structure(text).body).None? ==>
              r == Err(NoJsonArray(client.structure(text).body))
    ensures && !All(text, IsSpace) && client.structure(text).Text? && ExtractJsonArray(client.structure(text).body).Some?
            && StructuringValue(client, decode, text).None?
            ==> r == Err(InvalidJson(client.structure(text).body))
    ensures !All(text, IsSpace) && StructuringValue(client, decode, text).Some? && !IsPairList(StructuringValue(client, decode, text).value) ==>
              r == Err(NotPairList)
    ensures !All(text, IsSpace) && r.Ok? ==>
              var items := StructuringValue(client, decode, text).value.items;
              |r.value| == |items| && forall i :: 0 <= i < |items| ==> r.value[i] == items[i].fields
  {
    StripByEmpty(text, IsSpace);
    if Strip(text) == [] then
      Ok([])
    else
      var reply := client.structure(text);
      if reply.ApiError? then Err(ApiFailure(reply.message))
      else if reply.Unexpected? then Err(UnexpectedFailure(reply.message))
      else
        var js := ExtractJsonArray(reply.body);
        if js.None? then Err(NoJsonArray(reply.body))
        else
          var v := decode(js.value);
          if v.None? then Err(InvalidJson(reply.body))
          else if IsPairList(v.value) then
            Ok(PairsOf(v.value))
          else Err(NotPairList)
  }

  // ---------------------------------------------------------------------------
  // identify_main_topic and resolve_disambiguation

  predicate IsQuote(c: char) {
    c == '"' || c == '\''
  }

  predicate IsSpaceOrQuote(c: char) {
    IsSpace(c) || IsQuote(c)
  }

  /** `t` is `body` with a frame of whitespace and quote characters removed
      from its ends. */
  ghost predicate Unframed(body: string, t: string) {
    exists i, j :: Framed(body, IsSpaceOrQuote, i, j) && t == body[i..j]
  }

  /** Removing whitespace and then quotes from both ends removes a
      whitespace-or-quote frame. */
  lemma StripThenUnquote(body: string)
    ensures Unframed(body, StripBy(Strip(body), IsQuote))
    ensures StripBy(Strip(body), IsQuote) == [] ==> All(body, IsSpaceOrQuote)
  {
    var s := Strip(body);
    var i1, j1 :| Framed(body, IsSpace, i1, j1) && s == body[i1..j1];
    var t := StripBy(s, IsQuote);
    var i2, j2 :| Framed(s, IsQuote, i2, j2) && t == s[i2..j2];
    FramedCompose(body, IsSpace, i1, j1, IsQuote, i2, j2, IsSpaceOrQuote);
    assert t == body[i1 + i2..i1 + j2];
    if t == [] {
      assert Framed(body, IsSpaceOrQuote, i1 + i2, i1 + j2);
      forall k | 0 <= k < |body|
        ensures IsSpaceOrQuote(body[k])
      {
        if k >= i1 + i2 {
          assert k >= i1 + j2;
        }
      }
    }
  }

  /** `text.strip().strip('"\'')`: surrounding whitespace, then surrounding
      quote characters, removed. */
  function Unquote(body: string): (r: string)
    ensures exists i, j :: Framed(Strip(body), IsQuote, i, j) && r == Strip(body)[i..j]
    ensures Unframed(body, r)
    ensures r != [] ==> !IsQuote(r[0]) && !IsQuote(r[|r| - 1])
    ensures r == [] ==> All(body, IsSpaceOrQuote)
  {
    StripThenUnquote(body);
    StripBy(Strip(body), IsQuote)
  }

  /** Whitespace comes off before quotes, so whitespace inside the quotes
      stays: `' a'` cleans to " a". */
  lemma UnquoteKeepsInnerSpace()
    ensures Unquote("' a'") == " a"
  {
    var s := "' a'";
    assert s[0] == '\'' && s[3] == '\'' && s[1] == ' ' && s[2] == 'a';
    StripStripped(s);
    assert Framed(s, IsQuote, 1, 3);
    StripByIs(s, IsQuote, 1, 3);
    assert s[1..3] == " a";
  }

  /** A reply of blanks cleans to "". */
  lemma UnquoteBlank()
    ensures Unquote(" ") == ""
  {
    StripByAll(" ", IsSpace);
    StripByAll("", IsQuote);
  }

  /** `identify_main_topic`: the reply with whitespace and then quotes removed
      from both ends; an empty remainder or a failed request gives `None`. */
  function IdentifyMainTopic(client: Client, question: string, answer: string): (r: Option<string>)
    ensures !client.keyEntity(question, answer).Text? ==> r == None
    ensures r.Some? ==> r.value != [] && !IsQuote(r.value[0]) && !IsQuote(r.value[|r.value| - 1])
    ensures r.Some? ==> Unframed(client.keyEntity(question, answer).body, r.value)
    ensures r.None? && client.keyEntity(question, answer).Text? ==>
              All(client.keyEntity(question, answer).body, IsSpaceOrQuote)
    ensures client.keyEntity(question, answer).Text? ==>
              (r.Some? <==> Unquote(client.keyEntity(question, answer).body) != [])
    ensures r.Some? ==> r.value == Unquote(client.keyEntity(question, answer).body)
  {
    var reply := client.keyEntity(question, answer);
    if !reply.Text? then None
    else
      var topic := Unquote(reply.body);
      if topic == [] then None else Some(topic)
  }

  /** How many disambiguation candidates the prompt lists. */
  const ShownOptions: nat := 15

  /** `resolve_disambiguation`: with a client and at least one candidate, the
      model sees the first fifteen candidates; its cleaned reply is accepted
      only when it is a non-empty member of the full candidate list other than
      "NONE". Everything else, failures included, gives `None`. */
  function ResolveDisambiguation(client: Option<Client>, entity: string, options: seq<string>,
                                 question: string, answer: string): (r: Option<string>)
    ensures client.None? || options == [] ==> r == None
    ensures r.Some? ==> r.value in options && r.value != [] && r.value != "NONE"
    ensures r.Some? ==>
              var reply := client.value.choose(entity, Take(options, ShownOptions), question, answer);
              reply.Text? && Unquote(reply.body) == r.value
    ensures client.Some? && options != [] ==>
              var reply := client.value.choose(entity, Take(options, ShownOptions), question, answer);
              reply.Text? && Unquote(reply.body) in options && Unquote(reply.body) != [] && Unquote(reply.body) != "NONE"
              ==> r == Some(Unquote(reply.body))
  {
    if client.None? || options == [] then None
    else
      var reply := client.value.choose(entity, Take(options, ShownOptions), question, answer);
      if !reply.Text? then None
      else
        var title := Unquote(reply.body);
        if title != [] && title != "NONE" && title in options then Some(title) else None
  }

  /** Candidates past the fifteenth never reach the model: two candidate lists
      that agree on their first fifteen entries and on membership resolve alike. */
  lemma OnlyShownOptionsReachModel(client: Option<Client>, entity: string, o1: seq<string>, o2: seq<string>,
                                   question: string, answer: string)
    requires Take(o1, ShownOptions) == Take(o2, ShownOptions)
    requires forall t :: t in o1 <==> t in o2
    ensures ResolveDisambiguation(client, entity, o1, question, answer)
            == ResolveDisambiguation(client, entity, o2, question, answer)
  {
  }
}

=== FILE: merge.dfy ===
/** The merge step of the analyser (app.py): every non-empty candidate is
    stored in a dictionary under its comparison key, so that a later spelling
    replaces an earlier one with the same key, and the stored spellings are
    then sorted by their lower-cased form. The key function is a parameter;
    the analyser uses the accent- and case-folding key of the text utilities. */
module Merge {
  import opened Wrappers
  import Sorting

  /** One entry of the dictionary: comparison key to stored spelling. */
  datatype Entry = Entry(key: string, surface: string)

  predicate DistinctKeys(d: seq<Entry>) {
    forall i, j :: 0 <= i < j < |d| ==> d[i].key != d[j].key
  }

  lemma TailKeys(d: seq<Entry>, k: string)
    requires DistinctKeys(d) && d != [] && d[0].key == k
    ensures forall e :: e in d[1..] ==> e.key != k
  {
    forall e | e in d[1..]
      ensures e.key != k
    {
      var m :| 0 <= m < |d[1..]| && d[1..][m] == e;
      assert d[m + 1] == e;
    }
  }

  /** An entry whose key none of `d` has can go in front of `d`. */
  lemma ConsDistinct(e: Entry, d: seq<Entry>)
    requires DistinctKeys(d)
    requires forall x :: x in d ==> x.key != e.key
    ensures DistinctKeys([e] + d)
  {
    var r := [e] + d;
    forall i, j | 0 <= i < j < |r|
      ensures r[i].key != r[j].key
    {
      assert r[j] == d[j - 1];
      if i > 0 {
        assert r[i] == d[i - 1];
      }
    }
  }

  /** `d[k] = surface` on an insertion-ordered dictionary: an existing key
      keeps its position and takes the new value; a new key goes last. */
  function Assign(d: seq<Entry>, k: string, surface: string): (r: seq<Entry>)
    requires DistinctKeys(d)
    ensures DistinctKeys(r)
    ensures Entry(k, surface) in r
    ensures forall e :: e in r ==> e == Entry(k, surface) || (e in d && e.key != k)
    ensures forall e :: e in d && e.key != k ==> e in r
  {
    if d == [] then [Entry(k, surface)]
    else
      TailKeys(d, d[0].key);
      assert d == [d[0]] + d[1..];
      if d[0].key == k then
        ConsDistinct(Entry(k, surface), d[1..]);
        [Entry(k, surface)] + d[1..]
      else
        var rest := Assign(d[1..], k, surface);
        ConsDistinct(d[0], rest);
        [d[0]] + rest
  }

  /** `i` is a position of `cs`, and no non-empty candidate after it has key `k`. */
  ghost predicate NoLaterOfKey(norm: string -> string, cs: seq<string>, k: string, i: int) {
    && 0 <= i < |cs|
    && forall j :: i < j < |cs| && cs[j] != [] ==> norm(cs[j]) != k
  }

  /** The last non-empty candidate whose key is `k`, if any. */
  function LastOfKey(norm: string -> string, cs: seq<string>, k: string): (r: Option<string>)
    ensures r.Some? ==> r.value in cs && r.value != [] && norm(r.value) == k
    ensures r.None? <==> forall j :: 0 <= j < |cs| && cs[j] != [] ==> norm(cs[j]) != k
    ensures r.Some? ==> exists i :: NoLaterOfKey(norm, cs, k, i) && cs[i] == r.value
  {
    if cs == [] then None
    else
      var c := cs[|cs| - 1];
      var init := cs[..|cs| - 1];
      assert cs == init + [c];
      if c != [] && norm(c) == k then Some(c) else LastOfKey(norm, init, k)
  }

  /** The dictionary after the merge loop has visited `cs`: an entry for
      exactly the keys of non-empty candidates, each holding the last
      candidate spelled with its key. */
  function Combine(norm: string -> string, cs: seq<string>): (d: seq<Entry>)
    ensures DistinctKeys(d)
    ensures forall e :: e in d ==> e.key == norm(e.surface) && LastOfKey(norm, cs, e.key) == Some(e.surface)
    ensures forall k :: LastOfKey(norm, cs, k).Some? ==> Entry(k, LastOfKey(norm, cs, k).value) in d
    decreases |cs|
  {
    if cs == [] then []
    else
      var init := cs[..|cs| - 1];
      var c := cs[|cs| - 1];
      var d := Combine(norm, init);
      if c == [] then d
      else Assign(d, norm(c), c)
  }

  function Surfaces(d: seq<Entry>): (ss: seq<string>)
    ensures |ss| == |d|
    ensures forall i :: 0 <= i < |d| ==> ss[i] == d[i].surface
  {
    seq(|d|, i requires 0 <= i < |d| => d[i].surface)
  }

  /** Sorting keeps exactly the elements it was given. */
  lemma SortKeepsMembers(ss: seq<string>)
    ensures forall x :: x in Sorting.SortByLower(ss) <==> x in ss
  {
    var r := Sorting.SortByLower(ss);
    forall x
      ensures x in r <==> x in ss
    {
      assert x in r <==> x in multiset(r);
      assert x in ss <==> x in multiset(ss);
    }
  }

  /** The dictionary's spellings have pairwise distinct keys. */
  lemma SurfacesDistinct(norm: string -> string, cs: seq<string>)
    ensures Sorting.DistinctUnder(Surfaces(Combine(norm, cs)), norm)
  {
    var d := Combine(norm, cs);
    var ss := Surfaces(d);
    forall i, j | 0 <= i < j < |ss|
      ensures norm(ss[i]) != norm(ss[j])
    {
      assert d[i] in d && d[j] in d;
    }
  }

  /** The spellings of the dictionary are exactly the last spellings per key. */
  lemma SurfacesAreLast(norm: string -> string, cs: seq<string>)
    ensures forall x :: x in Surfaces(Combine(norm, cs)) ==> LastOfKey(norm, cs, norm(x)) == Some(x)
    ensures forall k :: LastOfKey(norm, cs, k).Some? ==> LastOfKey(norm, cs, k).value in Surfaces(Combine(norm, cs))
  {
    var d := Combine(norm, cs);
    var ss := Surfaces(d);
    forall x | x in ss
      ensures LastOfKey(norm, cs, norm(x)) == Some(x)
    {
      var m :| 0 <= m < |ss| && ss[m] == x;
      assert d[m] in d;
    }
    forall k | LastOfKey(norm, cs, k).Some?
      ensures LastOfKey(norm, cs, k).value in ss
    {
      var e := Entry(k, LastOfKey(norm, cs, k).value);
      var m :| 0 <= m < |d| && d[m] == e;
      assert ss[m] == e.surface;
    }
  }

  /** The merge: the dictionary's spellings sorted by their lower-cased form.
      The result holds, for every key of a non-empty candidate, the last
      candidate spelled with that key, and nothing else; no two results share
      a key. */
  function MergeEntities(norm: string -> string, cs: seq<string>): (r: seq<string>)
    ensures Sorting.Sorted(r)
    ensures forall i, j :: 0 <= i < j < |r| ==> norm(r[i]) != norm(r[j])
    ensures forall i :: 0 <= i < |r| ==> LastOfKey(norm, cs, norm(r[i])) == Some(r[i])
    ensures forall k :: LastOfKey(norm, cs, k).Some? ==> LastOfKey(norm, cs, k).value in r
  {
    var ss := Surfaces(Combine(norm, cs));
    SurfacesDistinct(norm, cs);
    Sorting.SortByLowerCorrect(ss, norm);
    SortKeepsMembers(ss);
    SurfacesAreLast(norm, cs);
    Sorting.SortByLower(ss)
  }

  /** Every non-empty candidate is represented by a result with its key. */
  lemma MergeCoversCandidates(norm: string -> string, cs: seq<string>, c: string)
    requires c in cs && c != []
    ensures exists i :: 0 <= i < |MergeEntities(norm, cs)| && norm(MergeEntities(norm, cs)[i]) == norm(c)
  {
    var r := MergeEntities(norm, cs);
    var j :| 0 <= j < |cs| && cs[j] == c;
    var v := LastOfKey(norm, cs, norm(c)).value;
    assert v in r;
    var i :| 0 <= i < |r| && r[i] == v;
  }

  /** Every result is one of the non-empty candidates. */
  lemma MergeFromCandidates(norm: string -> string, cs: seq<string>)
    ensures forall i :: 0 <= i < |MergeEntities(norm, cs)| ==>
              MergeEntities(norm, cs)[i] in cs && MergeEntities(norm, cs)[i] != []
  {
    var r := MergeEntities(norm, cs);
    forall i | 0 <= i < |r|
      ensures r[i] in cs && r[i] != []
    {
      assert LastOfKey(norm, cs, norm(r[i])) == Some(r[i]);
    }
  }

  /** Without empty candidates, the result is empty exactly when there are
      no candidates. */
  lemma MergeEmpty(norm: string -> string, cs: seq<string>)
    requires forall x :: x in cs ==> x != []
    ensures MergeEntities(norm, cs) == [] <==> cs == []
  {
    if cs != [] {
      MergeCoversCandidates(norm, cs, cs[0]);
    }
  }

  lemma InConcat(a: seq<string>, b: seq<string>, c: seq<string>)
    ensures forall x :: x in a + b + c <==> x in a || x in b || x in c
  {
  }

  /** Merging candidates gathered from three sources: every result comes from
      one of them, every candidate's key is represented, and the result is
      empty exactly when there are no candidates. */
  lemma MergeOfSources(norm: string -> string, a: seq<string>, b: seq<string>, c: seq<string>)
    requires forall x :: x in a ==> x != []
    requires forall x :: x in b ==> x != []
    requires forall x :: x in c ==> x != []
    ensures var r := MergeEntities(norm, a + b + c);
            && (forall i :: 0 <= i < |r| ==> r[i] in a || r[i] in b || r[i] in c)
            && (forall x :: x in a + b + c ==> exists i :: 0 <= i < |r| && norm(r[i]) == norm(x))
            && (r == [] <==> a + b + c == [])
  {
    var cs := a + b + c;
    var r := MergeEntities(norm, cs);
    InConcat(a, b, c);
    MergeFromCandidates(norm, cs);
    forall x | x in cs
      ensures exists i :: 0 <= i < |r| && norm(r[i]) == norm(x)
    {
      MergeCoversCandidates(norm, cs, x);
    }
    MergeEmpty(norm, cs);
  }

  /** The last spelling wins: of two candidates with one key, the later one
      is kept and the earlier one is dropped. */
  lemma LastSpellingWins(norm: string -> string, first: string, second: string)
    requires first != [] && second != [] && first != second
    requires norm(first) == norm(second)
    ensures MergeEntities(norm, [first, second]) == [second]
  {
    var cs := [first, second];
    var r := MergeEntities(norm, cs);
    assert LastOfKey(norm, cs, norm(second)) == Some(second);
    assert second in r;
    forall i | 0 <= i < |r|
      ensures r[i] == second
    {
      assert norm(r[i]) == norm(second);
    }
  }
}

=== FILE: nlp_utils.dfy ===
/** Named-entity extraction over an abstract classifier (utils/nlp_utils.py). */
module NlpUtils {
  import opened Strings
  import Config

  /** One span reported by the named-entity classifier. */
  datatype EntitySpan = EntitySpan(text: string, kind: string)

  /** The classifier: text in, labelled spans out, in document order. */
  type Classifier = string -> seq<EntitySpan>

  /** `s` is the cleaned text of an allow-listed span among `spans`. */
  ghost predicate Kept(spans: seq<EntitySpan>, s: string) {
    exists sp :: sp in spans && sp.kind in Config.EntityTypesToKeep && Strip(sp.text) == s && s != []
  }

  /** The loop of `extract_entities`: allow-listed spans, stripped, non-empty,
      added to a set. The set is kept as a sequence in first-occurrence order. */
  function Collect(spans: seq<EntitySpan>): (r: seq<string>)
    ensures forall i, j :: 0 <= i < j < |r| ==> r[i] != r[j]
    ensures forall s :: s in r <==> Kept(spans, s)
    decreases |spans|
  {
    if spans == [] then []
    else
      var init := spans[..|spans| - 1];
      var sp := spans[|spans| - 1];
      var prev := Collect(init);
      var cleaned := Strip(sp.text);
      KeptLast(spans);
      if sp.kind in Config.EntityTypesToKeep && cleaned != [] && cleaned !in prev then prev + [cleaned]
      else prev
  }

  /** What the last span adds to the kept texts. */
  lemma KeptLast(spans: seq<EntitySpan>)
    requires spans != []
    ensures var sp := spans[|spans| - 1];
            forall s :: Kept(spans, s) <==>
              Kept(spans[..|spans| - 1], s) || (sp.kind in Config.EntityTypesToKeep && Strip(sp.text) == s && s != [])
  {
    var init := spans[..|spans| - 1];
    assert forall x :: x in spans <==> x in init || x == spans[|spans| - 1];
  }

  /** `extract_entities`: empty text gives no entities and the classifier is
      not consulted; otherwise the distinct, stripped, non-empty texts of the
      allow-listed spans. Deduplication is exact, not by normalised key. */
  function ExtractEntities(classify: Classifier, text: string): (r: seq<string>)
    ensures text == [] ==> r == []
    ensures forall i, j :: 0 <= i < j < |r| ==> r[i] != r[j]
    ensures forall s :: s in r <==> text != [] && Kept(classify(text), s)
    ensures forall s :: s in r ==> s != [] && Strip(s) == s
  {
    if text == [] then []
    else
      var r := Collect(classify(text));
      forall s | s in r
        ensures Strip(s) == s
      {
        var sp :| sp in classify(text) && sp.kind in Config.EntityTypesToKeep && Strip(sp.text) == s && s != [];
        StripByIdempotent(sp.text, IsSpace);
      }
      r
  }

  /** A span with an allow-listed label whose text has no surrounding
      whitespace is extracted as it is. */
  lemma SurvivesAsIs(classify: Classifier, text: string, a: string, kind: string)
    requires text != [] && kind in Config.EntityTypesToKeep && EntitySpan(a, kind) in classify(text)
    requires a != [] && !IsSpace(a[0]) && !IsSpace(a[|a| - 1])
    ensures a in ExtractEntities(classify, text)
  {
    StripStripped(a);
    assert Kept(classify(text), a);
  }

  /** Deduplication is exact: two allow-listed spans whose texts carry no
      surrounding whitespace both survive, so spellings that differ only in
      case ("Paris" and "paris") give two entities. */
  lemma ExactDeduplication(classify: Classifier, text: string, a: string, b: string, kind: string)
    requires text != [] && kind in Config.EntityTypesToKeep
    requires EntitySpan(a, kind) in classify(text) && EntitySpan(b, kind) in classify(text)
    requires a != [] && !IsSpace(a[0]) && !IsSpace(a[|a| - 1])
    requires b != [] && !IsSpace(b[0]) && !IsSpace(b[|b| - 1])
    ensures a in ExtractEntities(classify, text) && b in ExtractEntities(classify, text)
    ensures a != b ==> |ExtractEntities(classify, text)| >= 2
  {
    SurvivesAsIs(classify, text, a, kind);
    SurvivesAsIs(classify, text, b, kind);
    if a != b {
      TwoMembers(ExtractEntities(classify, text), a, b);
    }
  }

  /** A list holding two different values has at least two elements. */
  lemma TwoMembers(r: seq<string>, a: string, b: string)
    requires a in r && b in r && a != b
    ensures |r| >= 2
  {
    var i :| 0 <= i < |r| && r[i] == a;
    var j :| 0 <= j < |r| && r[j] == b;
    assert i != j;
  }
}

=== FILE: sorting.dfy ===
/** `sorted(xs, key=...)` on strings: a stable insertion sort by a key,
    keys compared lexicographically by code point. The analyser sorts with
    `key=str.lower`. */
module Sorting {
  import opened Strings

  /** Keys never decrease along `s`. */
  predicate SortedBy(key: string -> string, s: seq<string>) {
    forall i, j :: 0 <= i < j < |s| ==> LexLe(key(s[i]), key(s[j]))
  }

  /** The elements of `s` whose key is `k`, in their order in `s`. */
  function WithKey(key: string -> string, s: seq<string>, k: string): seq<string> {
    if s == [] then [] else (if key(s[0]) == k then [s[0]] else []) + WithKey(key, s[1..], k)
  }

  lemma WithKeyCons(key: string -> string, x: string, s: seq<string>, k: string)
    ensures WithKey(key, [x] + s, k) == (if key(x) == k then [x] else []) + WithKey(key, s, k)
  {
    assert ([x] + s)[1..] == s;
  }

  lemma {:induction false} WithKeyAppend(key: string -> string, a: seq<string>, b: seq<string>, k: string)
    ensures WithKey(key, a + b, k) == WithKey(key, a, k) + WithKey(key, b, k)
  {
    if a != [] {
      assert (a + b)[1..] == a[1..] + b;
      WithKeyAppend(key, a[1..], b, k);
    } else {
      assert a + b == b;
    }
  }

  /** No element of `s` has key `k`. */
  lemma {:induction false} WithKeyNone(key: string -> string, s: seq<string>, k: string)
    requires forall i :: 0 <= i < |s| ==> key(s[i]) != k
    ensures WithKey(key, s, k) == []
  {
    if s != [] {
      WithKeyNone(key, s[1..], k);
    }
  }

  /** Places `x` after every element whose key is at most its own, so that it
      follows the equal-key elements already present. */
  function Insert(key: string -> string, x: string, s: seq<string>): (r: seq<string>)
    ensures multiset(r) == multiset(s) + multiset{x}
    ensures |r| == |s| + 1
  {
    if s == [] then [x]
    else if !LexLe(key(s[0]), key(x)) then [x] + s
    else
      assert s == [s[0]] + s[1..];
      [s[0]] + Insert(key, x, s[1..])
  }

  /** Every element of `Insert(x, s)` is `x` or an element of `s`. */
  lemma InsertMembers(key: string -> string, x: string, s: seq<string>)
    ensures forall y :: y in Insert(key, x, s) ==> y == x || y in s
  {
    var r := Insert(key, x, s);
    forall y | y in r
      ensures y == x || y in s
    {
      assert y in multiset(r);
    }
  }

  /** In a sorted list every key is at least the first key. */
  lemma SortedHead(key: string -> string, s: seq<string>, y: string)
    requires SortedBy(key, s) && s != [] && y in s
    ensures LexLe(key(s[0]), key(y))
  {
    LexLeReflexive(key(s[0]));
    var m :| 0 <= m < |s| && s[m] == y;
  }

  lemma ConsSorted(key: string -> string, x: string, s: seq<string>)
    requires SortedBy(key, s)
    requires forall y :: y in s ==> LexLe(key(x), key(y))
    ensures SortedBy(key, [x] + s)
  {
    var r := [x] + s;
    forall i, j | 0 <= i < j < |r|
      ensures LexLe(key(r[i]), key(r[j]))
    {
      assert r[j] == s[j - 1];
      if i > 0 {
        assert r[i] == s[i - 1];
      }
    }
  }

  lemma {:induction false} InsertSorted(key: string -> string, x: string, s: seq<string>)
    requires SortedBy(key, s)
    ensures SortedBy(key, Insert(key, x, s))
  {
    if s == [] {
    } else if !LexLe(key(s[0]), key(x)) {
      LexLeTotal(key(s[0]), key(x));
      forall y | y in s
        ensures LexLe(key(x), key(y))
      {
        SortedHead(key, s, y);
        LexLeTransitive(key(x), key(s[0]), key(y));
      }
      ConsSorted(key, x, s);
    } else {
      var t := s[1..];
      assert SortedBy(key, t);
      InsertSorted(key, x, t);
      var it := Insert(key, x, t);
      InsertMembers(key, x, t);
      forall y | y in it
        ensures LexLe(key(s[0]), key(y))
      {
        if y != x {
          assert y in s;
          SortedHead(key, s, y);
        }
      }
      ConsSorted(key, s[0], it);
    }
  }

  lemma ConcatAssoc(a: seq<string>, b: seq<string>, c: seq<string>)
    ensures a + (b + c) == (a + b) + c
  {
  }

  /** A sorted list whose first key is above `k` has no element with key `k`. */
  lemma AboveKeyNone(key: string -> string, s: seq<string>, k: string)
    requires SortedBy(key, s) && s != [] && !LexLe(key(s[0]), k)
    ensures WithKey(key, s, k) == []
  {
    LexLeReflexive(k);
    forall i | 0 <= i < |s|
      ensures key(s[i]) != k
    {
      if i > 0 {
        assert LexLe(key(s[0]), key(s[i]));
      }
    }
    WithKeyNone(key, s, k);
  }

  /** Inserting behind the first element: the first element's contribution
      comes before what the insertion into the rest gives. */
  lemma InsertBehindHead(key: string -> string, x: string, s: seq<string>, k: string, e: seq<string>)
    requires s != [] && LexLe(key(s[0]), key(x))
    requires WithKey(key, Insert(key, x, s[1..]), k) == WithKey(key, s[1..], k) + e
    ensures WithKey(key, Insert(key, x, s), k) == WithKey(key, s, k) + e
  {
    var t := s[1..];
    var h := if key(s[0]) == k then [s[0]] else [];
    assert Insert(key, x, s) == [s[0]] + Insert(key, x, t);
    WithKeyCons(key, s[0], Insert(key, x, t), k);
    assert [s[0]] + t == s;
    WithKeyCons(key, s[0], t, k);
    ConcatAssoc(h, WithKey(key, t, k), e);
  }

  /** In a sorted list, inserting `x` appends it to the elements sharing its
      key and leaves every other key's elements alone. */
  lemma {:induction false} InsertWithKey(key: string -> string, x: string, s: seq<string>, k: string)
    requires SortedBy(key, s)
    ensures WithKey(key, Insert(key, x, s), k) == WithKey(key, s, k) + (if key(x) == k then [x] else [])
  {
    if s == [] {
      WithKeyCons(key, x, [], k);
      assert [x] + [] == [x];
    } else if !LexLe(key(s[0]), key(x)) {
      assert Insert(key, x, s) == [x] + s;
      WithKeyCons(key, x, s, k);
      if key(x) == k {
        AboveKeyNone(key, s, k);
      }
    } else {
      assert SortedBy(key, s[1..]);
      InsertWithKey(key, x, s[1..], k);
      InsertBehindHead(key, x, s, k, if key(x) == k then [x] else []);
    }
  }

  /** The stable sort: each element is inserted behind the sorted prefix's
      elements of equal key. */
  function SortBy(key: string -> string, s: seq<string>): (r: seq<string>)
    ensures multiset(r) == multiset(s)
    ensures |r| == |s|
  {
    if s == [] then []
    else
      assert s == s[..|s| - 1] + [s[|s| - 1]];
      Insert(key, s[|s| - 1], SortBy(key, s[..|s| - 1]))
  }

  /** The result is ordered by key, and elements sharing a key keep their
      relative order: the sort is a stable permutation. */
  lemma {:induction false} SortByCorrect(key: string -> string, s: seq<string>)
    ensures SortedBy(key, SortBy(key, s))
    ensures forall k :: WithKey(key, SortBy(key, s), k) == WithKey(key, s, k)
  {
    if s != [] {
      var init := s[..|s| - 1];
      var x := s[|s| - 1];
      SortByCorrect(key, init);
      InsertSorted(key, x, SortBy(key, init));
      assert s == init + [x];
      forall k
        ensures WithKey(key, SortBy(key, s), k) == WithKey(key, s, k)
      {
        InsertWithKey(key, x, SortBy(key, init), k);
        WithKeyAppend(key, init, [x], k);
        WithKeyCons(key, x, [], k);
        assert [x] + [] == [x];
      }
    }
  }

  /** No two elements of `s` share an image under `f`. */
  predicate DistinctUnder(s: seq<string>, f: string -> string) {
    forall i, j :: 0 <= i < j < |s| ==> f(s[i]) != f(s[j])
  }

  lemma ConsDistinct(x: string, s: seq<string>, f: string -> string)
    requires DistinctUnder(s, f)
    requires forall y :: y in s ==> f(y) != f(x)
    ensures DistinctUnder([x] + s, f)
  {
    var r := [x] + s;
    forall i, j | 0 <= i < j < |r|
      ensures f(r[i]) != f(r[j])
    {
      assert r[j] == s[j - 1];
      if i > 0 {
        assert r[i] == s[i - 1];
      }
    }
  }

  lemma {:induction false} InsertDistinct(key: string -> string, x: string, s: seq<string>, f: string -> string)
    requires DistinctUnder(s, f)
    requires forall y :: y in s ==> f(y) != f(x)
    ensures DistinctUnder(Insert(key, x, s), f)
  {
    if s != [] && LexLe(key(s[0]), key(x)) {
      var t := s[1..];
      assert forall y :: y in t ==> y in s;
      assert DistinctUnder(t, f);
      InsertDistinct(key, x, t, f);
      var it := Insert(key, x, t);
      InsertMembers(key, x, t);
      forall y | y in it
        ensures f(y) != f(s[0])
      {
        if y != x {
          var m :| 0 <= m < |t| && t[m] == y;
          assert s[m + 1] == y;
        }
      }
      ConsDistinct(s[0], it, f);
    } else if s != [] {
      ConsDistinct(x, s, f);
    }
  }

  /** Sorting keeps distinctness under any function, since it only permutes. */
  lemma {:induction false} SortDistinct(key: string -> string, s: seq<string>, f: string -> string)
    requires DistinctUnder(s, f)
    ensures DistinctUnder(SortBy(key, s), f)
  {
    if s != [] {
      var init := s[..|s| - 1];
      var x := s[|s| - 1];
      assert DistinctUnder(init, f);
      SortDistinct(key, init, f);
      var sorted := SortBy(key, init);
      forall y | y in sorted
        ensures f(y) != f(x)
      {
        assert y in multiset(sorted);
        var m :| 0 <= m < |init| && init[m] == y;
        assert s[m] == y;
      }
      InsertDistinct(key, x, sorted, f);
    }
  }

  // ---------------------------------------------------------------------------
  // key=str.lower

  predicate Sorted(s: seq<string>) {
    SortedBy(Lower, s)
  }

  /** `sorted(xs, key=str.lower)`. */
  function SortByLower(s: seq<string>): (r: seq<string>)
    ensures multiset(r) == multiset(s)
  {
    SortBy(Lower, s)
  }

  /** Ordered by lower-cased form, a stable permutation, and distinct under
      any function under which the input was. */
  lemma SortByLowerCorrect(s: seq<string>, f: string -> string)
    ensures Sorted(SortByLower(s))
    ensures forall k :: WithKey(Lower, SortByLower(s), k) == WithKey(Lower, s, k)
    ensures DistinctUnder(s, f) ==> DistinctUnder(SortByLower(s), f)
  {
    SortByCorrect(Lower, s);
    if DistinctUnder(s, f) {
      SortDistinct(Lower, s, f);
    }
  }
}

=== FILE: strings.dfy ===
/** The pieces of Python's `str` that the analyser relies on: `isspace`,
    `strip`, `split()` without a separator, `join`, ASCII `lower` and
    `capitalize`, slicing with `[:n]`, and ordering by code point. */
module Strings {

  /** Python's `str.isspace` for one character (the same set is used by
      `strip()`, `split()` and the regular-expression class `\s`). */
  predicate IsSpace(c: char) {
    var n := c as int;
    (9 <= n <= 13) || (28 <= n <= 32) || n == 0x85 || n == 0xA0 || n == 0x1680
    || (0x2000 <= n <= 0x200A) || n == 0x2028 || n == 0x2029 || n == 0x202F
    || n == 0x205F || n == 0x3000
  }

  predicate IsNonSpace(c: char) {
    !IsSpace(c)
  }

  predicate IsAscii(c: char) {
    c as int < 128
  }

  /** Every character of `s` satisfies `p`. */
  predicate All(s: string, p: char -> bool) {
    forall k :: 0 <= k < |s| ==> p(s[k])
  }

  /** Python's `s[:n]`. */
  function Take<T>(s: seq<T>, n: nat): (r: seq<T>)
  {
    if |s| <= n then s else s[..n]
  }

  // ---------------------------------------------------------------------------
  // strip

  /** Length of the longest prefix of `s` whose characters satisfy `p`. */
  function LeadingRun(s: string, p: char -> bool): (n: nat)
    ensures n <= |s|
    ensures forall k :: 0 <= k < n ==> p(s[k])
    ensures n < |s| ==> !p(s[n])
  {
    if s == [] || !p(s[0]) then 0 else 1 + LeadingRun(s[1..], p)
  }

  /** Length of the longest suffix of `s` whose characters satisfy `p`. */
  function TrailingRun(s: string, p: char -> bool): (n: nat)
    ensures n <= |s|
    ensures forall k :: |s| - n <= k < |s| ==> p(s[k])
    ensures n < |s| ==> !p(s[|s| - 1 - n])
  {
    if s == [] || !p(s[|s| - 1]) then 0 else 1 + TrailingRun(s[..|s| - 1], p)
  }

  /** `s[i..j]` is surrounded only by characters satisfying `p`. */
  ghost predicate Framed(s: string, p: char -> bool, i: int, j: int) {
    && 0 <= i <= j <= |s|
    && (forall k :: 0 <= k < i ==> p(s[k]))
    && (forall k :: j <= k < |s| ==> p(s[k]))
  }

  /** Python's `s.strip(chars)`, with the character set given as `p`: the
      leading run, then the trailing run, of characters in the set removed. */
  function StripBy(s: string, p: char -> bool): (r: string)
    ensures exists i, j :: Framed(s, p, i, j) && r == s[i..j]
    ensures r != [] ==> !p(r[0]) && !p(r[|r| - 1])
  {
    var i := LeadingRun(s, p);
    var t := s[i..];
    var n := TrailingRun(t, p);
    var j := |s| - n;
    assert forall k :: j <= k < |s| ==> s[k] == t[k - i];
    assert Framed(s, p, i, j);
    assert i < j ==> !p(s[i]) && s[j - 1] == t[|t| - 1 - n];
    s[i..j]
  }

  /** Python's `s.strip()`. */
  function Strip(s: string): string
  {
    StripBy(s, IsSpace)
  }

  /** The leading run ends at the first character outside the set. */
  lemma LeadingRunIs(s: string, p: char -> bool, i: int)
    requires 0 <= i <= |s| && (forall k :: 0 <= k < i ==> p(s[k])) && (i < |s| ==> !p(s[i]))
    ensures LeadingRun(s, p) == i
  {
  }

  /** The trailing run starts after the last character outside the set. */
  lemma TrailingRunIs(s: string, p: char -> bool, m: int)
    requires 0 <= m <= |s| && (forall k :: |s| - m <= k < |s| ==> p(s[k])) && (m < |s| ==> !p(s[|s| - 1 - m]))
    ensures TrailingRun(s, p) == m
  {
  }

  /** The cut is determined: a non-empty infix framed by characters outside
      the set, with only set characters around it, is what `StripBy` keeps. */
  lemma StripByIs(s: string, p: char -> bool, i: int, j: int)
    requires Framed(s, p, i, j) && i < j
    requires !p(s[i]) && !p(s[j - 1])
    ensures StripBy(s, p) == s[i..j]
  {
    LeadingRunIs(s, p, i);
    var t := s[i..];
    forall k | |t| - (|s| - j) <= k < |t|
      ensures p(t[k])
    {
      assert t[k] == s[i + k];
    }
    assert t[|t| - 1 - (|s| - j)] == s[j - 1];
    TrailingRunIs(t, p, |s| - j);
  }

  /** A string with no whitespace at either end is its own `strip()`. */
  lemma StripStripped(s: string)
    requires s != [] && !IsSpace(s[0]) && !IsSpace(s[|s| - 1])
    ensures Strip(s) == s
  {
    StripByIs(s, IsSpace, 0, |s|);
    assert s[0..|s|] == s;
  }

  /** Stripping a string made only of set characters leaves nothing. */
  lemma StripByAll(s: string, p: char -> bool)
    requires All(s, p)
    ensures StripBy(s, p) == []
  {
  }

  /** Exactly the strings made only of set characters strip to nothing. */
  lemma StripByEmpty(s: string, p: char -> bool)
    ensures StripBy(s, p) == [] <==> All(s, p)
  {
    if StripBy(s, p) == [] {
      var i, j :| Framed(s, p, i, j) && StripBy(s, p) == s[i..j];
      assert i == j;
    }
  }

  /** `StripBy` is idempotent. */
  lemma StripByIdempotent(s: string, p: char -> bool)
    ensures StripBy(StripBy(s, p), p) == StripBy(s, p)
  {
    var r := StripBy(s, p);
    if r != [] {
      StripByIs(r, p, 0, |r|);
      assert r[0..|r|] == r;
    }
  }

  /** Set characters added around a framed infix keep it framed. */
  lemma FramedWithin(a: string, x: string, b: string, p: char -> bool, i: int, j: int)
    requires All(a, p) && All(b, p) && Framed(x, p, i, j)
    ensures Framed(a + x + b, p, |a| + i, |a| + j)
  {
    var s := a + x + b;
    forall k | 0 <= k < |a| + i
      ensures p(s[k])
    {
      if k < |a| {
        assert s[k] == a[k];
      } else {
        assert s[k] == x[k - |a|];
      }
    }
    forall k | |a| + j <= k < |s|
      ensures p(s[k])
    {
      if k < |a| + |x| {
        assert s[k] == x[k - |a|];
      } else {
        assert s[k] == b[k - |a| - |x|];
      }
    }
  }

  /** Set characters around a string do not change what `StripBy` keeps. */
  lemma StripBySurrounded(a: string, x: string, b: string, p: char -> bool)
    requires All(a, p) && All(b, p)
    ensures StripBy(a + x + b, p) == StripBy(x, p)
  {
    var s := a + x + b;
    var r := StripBy(x, p);
    var i, j :| Framed(x, p, i, j) && r == x[i..j];
    FramedWithin(a, x, b, p, i, j);
    var i', j' := |a| + i, |a| + j;
    if i == j {
      forall k | 0 <= k < |s|
        ensures p(s[k])
      {
        if k < i' {
          assert Framed(s, p, i', j');
        }
      }
      StripByAll(s, p);
      assert r == [];
    } else {
      assert s[i'..j'] == r;
      assert s[i'] == r[0] && s[j' - 1] == r[|r| - 1];
      StripByIs(s, p, i', j');
    }
  }

  /** A frame inside a frame is a frame of the whole, for any character set
      containing both. */
  lemma FramedCompose(s: string, p: char -> bool, i1: int, j1: int,
                      q: char -> bool, i2: int, j2: int, pq: char -> bool)
    requires Framed(s, p, i1, j1) && Framed(s[i1..j1], q, i2, j2)
    requires forall c :: p(c) ==> pq(c)
    requires forall c :: q(c) ==> pq(c)
    ensures Framed(s, pq, i1 + i2, i1 + j2)
    ensures s[i1..j1][i2..j2] == s[i1 + i2..i1 + j2]
  {
    var t := s[i1..j1];
    forall k | 0 <= k < i1 + i2
      ensures pq(s[k])
    {
      if k < i1 {
        assert p(s[k]);
      } else {
        assert s[k] == t[k - i1];
        assert q(t[k - i1]);
      }
    }
    forall k | i1 + j2 <= k < |s|
      ensures pq(s[k])
    {
      if k < j1 {
        assert s[k] == t[k - i1];
        assert q(t[k - i1]);
      } else {
        assert p(s[k]);
      }
    }
    assert |t[i2..j2]| == j2 - i2;
    assert forall k :: 0 <= k < j2 - i2 ==> t[i2..j2][k] == s[i1 + i2 + k];
  }

  /** What holds of every character of `s` holds of every character kept by `StripBy`. */
  lemma StripByKeeps(s: string, p: char -> bool, q: char -> bool)
    requires All(s, q)
    ensures All(StripBy(s, p), q)
  {
    var r := StripBy(s, p);
    var i, j :| Framed(s, p, i, j) && r == s[i..j];
    assert forall k :: 0 <= k < |r| ==> r[k] == s[i + k];
  }

  // ---------------------------------------------------------------------------
  // split and join

  /** A word of `split()`: non-empty and free of whitespace. */
  predicate IsWord(w: string) {
    w != [] && All(w, IsNonSpace)
  }

  /** Python's `s.split()` with no separator: the maximal runs of
      non-whitespace characters, in order. */
  function Split(s: string): (ws: seq<string>)
    ensures forall i :: 0 <= i < |ws| ==> IsWord(ws[i])
    decreases |s|
  {
    var t := s[LeadingRun(s, IsSpace)..];
    if t == [] then []
    else
      var n := LeadingRun(t, IsNonSpace);
      assert n > 0;
      [t[..n]] + Split(t[n..])
  }

  /** Python's `sep.join(ws)`. */
  function Join(sep: string, ws: seq<string>): string
  {
    if ws == [] then ""
    else if |ws| == 1 then ws[0]
    else ws[0] + sep + Join(sep, ws[1..])
  }

  /** `part` stands in `whole` from position `p` on. */
  predicate OccursAt(part: string, whole: string, p: int) {
    0 <= p <= |whole| - |part| && whole[p..p + |part|] == part
  }

  /** `part` occurs in `whole` as a contiguous slice. */
  ghost predicate Occurs(part: string, whole: string) {
    exists p :: OccursAt(part, whole, p)
  }

  /** Every joined word occurs in the join. */
  lemma {:induction false} JoinContains(sep: string, ws: seq<string>, k: int)
    requires 0 <= k < |ws|
    ensures Occurs(ws[k], Join(sep, ws))
  {
    var s := Join(sep, ws);
    if |ws| == 1 {
      assert OccursAt(ws[0], s, 0);
    } else if k == 0 {
      assert s == ws[0] + (sep + Join(sep, ws[1..]));
      assert OccursAt(ws[0], s, 0);
    } else {
      var rest := Join(sep, ws[1..]);
      JoinContains(sep, ws[1..], k - 1);
      var w := ws[k];
      assert ws[1..][k - 1] == w;
      var p :| OccursAt(w, rest, p);
      var q := |ws[0]| + |sep| + p;
      assert s == (ws[0] + sep) + rest;
      assert s[q..q + |w|] == rest[p..p + |w|];
      assert OccursAt(w, s, q);
    }
  }

  /** No whitespace at either end, and every whitespace character is a plain
      space standing alone between two non-space characters. */
  predicate SingleSpaced(s: string) {
    forall k :: 0 <= k < |s| && IsSpace(s[k]) ==>
      && s[k] == ' '
      && 0 < k < |s| - 1
      && !IsSpace(s[k - 1])
      && !IsSpace(s[k + 1])
  }

  /** Leading whitespace is invisible to `split()`. */
  lemma SplitSkipsSpace(c: char, s: string)
    requires IsSpace(c)
    ensures Split([c] + s) == Split(s)
  {
    var cs := [c] + s;
    assert cs[1..] == s;
    assert LeadingRun(cs, IsSpace) == 1 + LeadingRun(s, IsSpace);
    assert cs[LeadingRun(cs, IsSpace)..] == s[LeadingRun(s, IsSpace)..];
  }

  /** A single word splits to itself. */
  lemma SplitWord(w: string, rest: string)
    requires IsWord(w)
    requires rest == [] || IsSpace(rest[0])
    ensures Split(w + rest) == [w] + Split(rest)
  {
    var s := w + rest;
    assert LeadingRun(s, IsSpace) == 0;
    assert s[0..] == s;
    var n := LeadingRun(s, IsNonSpace);
    assert forall k :: 0 <= k < |w| ==> s[k] == w[k];
    assert |w| < |s| ==> s[|w|] == rest[0];
    assert n == |w|;
    assert s[..n] == w;
    assert s[n..] == rest;
  }

  /** A word, a space and a string split into the word and the string's words. */
  lemma SplitWordSpace(w: string, rest: string)
    requires IsWord(w)
    ensures Split(w + " " + rest) == [w] + Split(rest)
  {
    assert w + " " + rest == w + ([' '] + rest);
    SplitWord(w, [' '] + rest);
    SplitSkipsSpace(' ', rest);
  }

  /** Joining words with single spaces and splitting again gives the words back. */
  lemma {:induction false} SplitJoin(ws: seq<string>)
    requires forall i :: 0 <= i < |ws| ==> IsWord(ws[i])
    ensures Split(Join(" ", ws)) == ws
  {
    if ws == [] {
      assert Join(" ", ws) == "";
    } else if |ws| == 1 {
      SplitWord(ws[0], "");
      assert ws[0] + "" == ws[0];
    } else {
      SplitJoin(ws[1..]);
      SplitWordSpace(ws[0], Join(" ", ws[1..]));
      assert ws == [ws[0]] + ws[1..];
    }
  }

  /** The join of words starts and ends with a non-space character. */
  lemma {:induction false} JoinWordsEnds(ws: seq<string>)
    requires ws != []
    requires forall i :: 0 <= i < |ws| ==> IsWord(ws[i])
    ensures var s := Join(" ", ws); s != [] && !IsSpace(s[0]) && !IsSpace(s[|s| - 1])
  {
    if |ws| > 1 {
      JoinWordsEnds(ws[1..]);
      var rest := Join(" ", ws[1..]);
      var s := ws[0] + " " + rest;
      assert s[0] == ws[0][0];
      assert s[|s| - 1] == rest[|rest| - 1];
    } else {
      assert ws[0][0] == ws[0][0];
    }
  }

  /** Words joined by single spaces are single-spaced. */
  lemma {:induction false} JoinWordsSingleSpaced(ws: seq<string>)
    requires forall i :: 0 <= i < |ws| ==> IsWord(ws[i])
    ensures SingleSpaced(Join(" ", ws))
  {
    if |ws| == 1 {
      assert All(ws[0], IsNonSpace);
    } else if |ws| > 1 {
      var w := ws[0];
      var rest := Join(" ", ws[1..]);
      JoinWordsSingleSpaced(ws[1..]);
      JoinWordsEnds(ws[1..]);
      var s := w + " " + rest;
      assert Join(" ", ws) == s;
      assert forall k :: 0 <= k < |w| ==> s[k] == w[k] && !IsSpace(s[k]);
      forall k | 0 <= k < |s| && IsSpace(s[k])
        ensures s[k] == ' ' && 0 < k < |s| - 1 && !IsSpace(s[k - 1]) && !IsSpace(s[k + 1])
      {
        if k == |w| {
          assert s[k - 1] == w[|w| - 1];
          assert s[k + 1] == rest[0];
        } else {
          var k' := k - |w| - 1;
          assert s[k] == rest[k'];
          assert s[k - 1] == rest[k' - 1];
          assert s[k + 1] == rest[k' + 1];
        }
      }
    }
  }

  // ---------------------------------------------------------------------------
  // case mapping (ASCII letters only)

  predicate IsUpper(c: char) {
    'A' <= c <= 'Z'
  }

  function LowerChar(c: char): char {
    if 'A' <= c <= 'Z' then (c as int + 32) as char else c
  }

  function UpperChar(c: char): char {
    if 'a' <= c <= 'z' then (c as int - 32) as char else c
  }

  /** Python's `s.lower()`, restricted to ASCII letters. */
  function Lower(s: string): string {
    seq(|s|, k requires 0 <= k < |s| => LowerChar(s[k]))
  }

  /** Python's `w.capitalize()`: first character upper-cased, the rest lower-cased. */
  function Capitalize(w: string): string {
    if w == [] then [] else [UpperChar(w[0])] + Lower(w[1..])
  }

  lemma CaseChars(c: char)
    ensures LowerChar(LowerChar(c)) == LowerChar(c) && LowerChar(UpperChar(c)) == LowerChar(c)
    ensures UpperChar(UpperChar(c)) == UpperChar(c) && UpperChar(LowerChar(c)) == UpperChar(c)
    ensures IsSpace(LowerChar(c)) == IsSpace(c) && IsSpace(UpperChar(c)) == IsSpace(c)
  {
  }

  /** `Capitalize` character by character. */
  lemma CapitalizeAt(w: string)
    requires w != []
    ensures |Capitalize(w)| == |w| && Capitalize(w)[0] == UpperChar(w[0])
    ensures forall k :: 0 < k < |w| ==> Capitalize(w)[k] == LowerChar(w[k])
  {
  }

  lemma CaseWordsAreWords(w: string)
    requires IsWord(w)
    ensures IsWord(Lower(w)) && IsWord(Capitalize(w))
  {
    var cw := Capitalize(w);
    CapitalizeAt(w);
    forall k | 0 <= k < |w|
      ensures !IsSpace(cw[k]) && !IsSpace(Lower(w)[k])
    {
      CaseChars(w[k]);
    }
  }

  lemma CapitalizeSettles(w: string)
    requires w != []
    ensures Capitalize(Capitalize(w)) == Capitalize(w)
    ensures Capitalize(Lower(w)) == Capitalize(w)
    ensures Lower(Capitalize(w)) == Lower(w)
  {
    var cw := Capitalize(w);
    var lw := Lower(w);
    CapitalizeAt(w);
    CapitalizeAt(cw);
    CapitalizeAt(lw);
    forall k | 0 <= k < |w|
      ensures Capitalize(cw)[k] == cw[k] && Capitalize(lw)[k] == cw[k] && Lower(cw)[k] == lw[k]
    {
      CaseChars(w[k]);
    }
  }

  /** Case mapping keeps words words and settles after one application. */
  lemma CaseWords(w: string)
    requires IsWord(w)
    ensures IsWord(Lower(w)) && IsWord(Capitalize(w))
    ensures Capitalize(Capitalize(w)) == Capitalize(w)
    ensures Capitalize(Lower(w)) == Capitalize(w)
    ensures Lower(Capitalize(w)) == Lower(w)
  {
    CaseWordsAreWords(w);
    CapitalizeSettles(w);
  }

  lemma LowerAppend(a: string, b: string)
    ensures Lower(a + b) == Lower(a) + Lower(b)
  {
  }

  /** Lower-casing leaves a string without upper-case ASCII letters as it is. */
  lemma LowerUnchanged(s: string)
    requires forall k :: 0 <= k < |s| ==> !IsUpper(s[k])
    ensures Lower(s) == s
  {
  }

  // ---------------------------------------------------------------------------
  // ordering

  /** Python's `a <= b` on strings: lexicographic by code point. */
  predicate LexLe(a: string, b: string) {
    a == [] || (b != [] && (a[0] < b[0] || (a[0] == b[0] && LexLe(a[1..], b[1..]))))
  }

  lemma {:induction false} LexLeTotal(a: string, b: string)
    ensures LexLe(a, b) || LexLe(b, a)
  {
    if a != [] && b != [] && a[0] == b[0] {
      LexLeTotal(a[1..], b[1..]);
    }
  }

  lemma {:induction false} LexLeReflexive(a: string)
    ensures LexLe(a, a)
  {
    if a != [] {
      LexLeReflexive(a[1..]);
    }
  }

  lemma {:induction false} LexLeAntisymmetric(a: string, b: string)
    requires LexLe(a, b) && LexLe(b, a)
    ensures a == b
  {
    if a != [] && b != [] {
      LexLeAntisymmetric(a[1..], b[1..]);
      assert a == [a[0]] + a[1..];
      assert b == [b[0]] + b[1..];
    }
  }

  lemma {:induction false} LexLeTransitive(a: string, b: string, c: string)
    requires LexLe(a, b) && LexLe(b, c)
    ensures LexLe(a, c)
  {
    if a != [] && b != [] && c != [] && a[0] == b[0] && b[0] == c[0] {
      LexLeTransitive(a[1..], b[1..], c[1..]);
    }
  }
}

=== FILE: text_utils.dfy ===
/** Accent- and case-insensitive comparison keys, the membership test built on
    them, and Wikipedia-style title casing of entity names
    (utils/text_utils.py). */
module TextUtils {
  import opened Strings

  /** Unicode NFKD decomposition. Its tables are not part of this model: every
      operation that needs it takes the decomposition as a parameter. */
  type Decomposition = string -> string

  predicate IsAsciiString(s: string) {
    All(s, IsAscii)
  }

  /** The facts about NFKD that the lemmas rely on: ASCII text is already
      decomposed, and decomposition splits at a boundary next to ASCII text
      (ASCII characters are starters, so no combining mark is reordered
      across them). */
  ghost predicate IsDecomposition(nfkd: Decomposition) {
    && (forall s :: IsAsciiString(s) ==> nfkd(s) == s)
    && (forall x, y :: IsAsciiString(x) || IsAsciiString(y) ==> nfkd(x + y) == nfkd(x) + nfkd(y))
  }

  /** `.encode("ascii", "ignore").decode("ascii")`: every non-ASCII character dropped. */
  function AsciiOnly(s: string): (r: string)
    ensures IsAsciiString(r)
    ensures IsAsciiString(s) ==> r == s
    ensures (forall k :: 0 <= k < |s| ==> !IsAscii(s[k])) ==> r == []
  {
    if s == [] then []
    else (if IsAscii(s[0]) then [s[0]] else []) + AsciiOnly(s[1..])
  }

  lemma {:induction false} AsciiOnlyAppend(a: string, b: string)
    ensures AsciiOnly(a + b) == AsciiOnly(a) + AsciiOnly(b)
  {
    if a != [] {
      assert (a + b)[1..] == a[1..] + b;
      AsciiOnlyAppend(a[1..], b);
    } else {
      assert a + b == b;
    }
  }

  predicate IsNotUpper(c: char) {
    !IsUpper(c)
  }

  /** Lower-casing ASCII text gives ASCII text without upper-case letters. */
  lemma LowerAscii(s: string)
    requires IsAsciiString(s)
    ensures IsAsciiString(Lower(s)) && All(Lower(s), IsNotUpper)
  {
  }

  /** `normalize_text`: decompose, drop non-ASCII, lower-case, strip. Used only
      as a comparison key. */
  function NormalizeText(nfkd: Decomposition, txt: string): (r: string)
    ensures txt == [] ==> r == []
    ensures IsAsciiString(r)
    ensures forall k :: 0 <= k < |r| ==> !IsUpper(r[k])
    ensures r != [] ==> !IsSpace(r[0]) && !IsSpace(r[|r| - 1])
    ensures (forall k :: 0 <= k < |nfkd(txt)| ==> !IsAscii(nfkd(txt)[k])) ==> r == []
  {
    if txt == [] then []
    else
      var folded := Lower(AsciiOnly(nfkd(txt)));
      LowerAscii(AsciiOnly(nfkd(txt)));
      StripByKeeps(folded, IsSpace, IsAscii);
      StripByKeeps(folded, IsSpace, IsNotUpper);
      Strip(folded)
  }

  /** Normalising twice is normalising once. */
  lemma NormalizeIdempotent(nfkd: Decomposition, s: string)
    requires IsDecomposition(nfkd)
    ensures NormalizeText(nfkd, NormalizeText(nfkd, s)) == NormalizeText(nfkd, s)
  {
    var r := NormalizeText(nfkd, s);
    if r != [] {
      assert nfkd(r) == r;
      NormalizeKeyFixed(nfkd, r);
    }
  }

  /** A key that decomposes to itself is its own key. */
  lemma NormalizeKeyFixed(nfkd: Decomposition, r: string)
    requires r != [] && nfkd(r) == r && IsAsciiString(r)
    requires forall k :: 0 <= k < |r| ==> !IsUpper(r[k])
    requires !IsSpace(r[0]) && !IsSpace(r[|r| - 1])
    ensures NormalizeText(nfkd, r) == r
  {
    assert AsciiOnly(nfkd(r)) == r;
    LowerUnchanged(r);
    StripStripped(r);
  }

  /** ASCII strings that differ only in letter case normalise equal. */
  lemma NormalizeIgnoresCase(nfkd: Decomposition, a: string, b: string)
    requires IsDecomposition(nfkd)
    requires IsAsciiString(a) && IsAsciiString(b)
    requires Lower(a) == Lower(b)
    ensures NormalizeText(nfkd, a) == NormalizeText(nfkd, b)
  {
    assert nfkd(a) == a && nfkd(b) == b;
    assert |a| == |Lower(a)| == |Lower(b)| == |b|;
  }

  /** Combining marks do not matter: a string has the key of the ASCII
      characters of its decomposition, so "Café" (decomposed to "Cafe" and an
      acute accent) has the key of "Cafe". */
  lemma NormalizeDropsMarks(nfkd: Decomposition, s: string)
    requires IsDecomposition(nfkd)
    ensures NormalizeText(nfkd, s) == NormalizeText(nfkd, AsciiOnly(nfkd(s)))
  {
    var x := AsciiOnly(nfkd(s));
    if s == [] {
      DecomposeEmpty(nfkd);
    } else if x == [] {
      assert Lower(x) == [];
      StripByAll([], IsSpace);
    } else {
      assert nfkd(x) == x;
    }
  }

  /** Lower-casing and stripping ignore ASCII whitespace around a string. */
  lemma FoldIgnoresSpace(w1: string, x: string, w2: string)
    requires All(w1, IsSpace) && All(w2, IsSpace)
    ensures Strip(Lower(w1 + x + w2)) == Strip(Lower(x))
  {
    LowerAppend(w1 + x, w2);
    LowerAppend(w1, x);
    LowerUnchanged(w1);
    LowerUnchanged(w2);
    StripBySurrounded(w1, Lower(x), w2, IsSpace);
  }

  /** Decomposing and dropping non-ASCII characters keeps ASCII text around
      a string in place. */
  lemma AsciiOfDecomposed(nfkd: Decomposition, w1: string, s: string, w2: string)
    requires IsDecomposition(nfkd)
    requires IsAsciiString(w1) && IsAsciiString(w2)
    ensures AsciiOnly(nfkd(w1 + s + w2)) == w1 + AsciiOnly(nfkd(s)) + w2
  {
    var d := nfkd(s);
    assert nfkd(w1 + s) == w1 + d;
    assert nfkd((w1 + s) + w2) == w1 + d + w2;
    AsciiOnlyAppend(w1 + d, w2);
    AsciiOnlyAppend(w1, d);
  }

  /** The empty string decomposes to nothing. */
  lemma DecomposeEmpty(nfkd: Decomposition)
    requires IsDecomposition(nfkd)
    ensures nfkd([]) == []
  {
    var e: string := [];
    assert e + e == e;
    assert nfkd(e + e) == nfkd(e) + nfkd(e);
  }

  /** ASCII whitespace around a string does not change its key. */
  lemma NormalizeIgnoresSurroundingSpace(nfkd: Decomposition, w1: string, s: string, w2: string)
    requires IsDecomposition(nfkd)
    requires IsAsciiString(w1) && All(w1, IsSpace)
    requires IsAsciiString(w2) && All(w2, IsSpace)
    ensures NormalizeText(nfkd, w1 + s + w2) == NormalizeText(nfkd, s)
  {
    var x := AsciiOnly(nfkd(s));
    AsciiOfDecomposed(nfkd, w1, s, w2);
    FoldIgnoresSpace(w1, x, w2);
    if s == [] {
      DecomposeEmpty(nfkd);
      assert Lower(x) == [];
      StripByAll([], IsSpace);
    }
  }

  /** `in_list_case_insensitive`: some element has the same key as `item`. */
  function InListCaseInsensitive(nfkd: Decomposition, item: string, items: seq<string>): (r: bool)
    ensures r <==> exists i :: 0 <= i < |items| && NormalizeText(nfkd, items[i]) == NormalizeText(nfkd, item)
    ensures item in items ==> r
    ensures items == [] ==> !r
  {
    if items == [] then false
    else NormalizeText(nfkd, items[0]) == NormalizeText(nfkd, item)
         || InListCaseInsensitive(nfkd, item, items[1..])
  }

  // ---------------------------------------------------------------------------
  // title casing

  /** Words that `to_title_case` lower-cases after the first position, in the
      capitalised form it compares against. */
  const MinorWords: set<string> := {"Of", "And", "The", "In", "On", "At", "To", "For", "With", "By"}

  function CapitalizeAll(ws: seq<string>): seq<string> {
    seq(|ws|, i requires 0 <= i < |ws| => Capitalize(ws[i]))
  }

  /** `string.capwords(s)`: split on whitespace, capitalise each word, join
      with single spaces. */
  function Capwords(s: string): (r: string)
    ensures Split(r) == CapitalizeAll(Split(s))
    ensures SingleSpaced(r)
  {
    var ws := Split(s);
    forall i | 0 <= i < |ws|
      ensures IsWord(CapitalizeAll(ws)[i])
    {
      CaseWords(ws[i]);
    }
    SplitJoin(CapitalizeAll(ws));
    JoinWordsSingleSpaced(CapitalizeAll(ws));
    Join(" ", CapitalizeAll(ws))
  }

  /** The loop of `to_title_case`: from the second word on, a word found among
      the minor words is lower-cased. */
  function LowerMinorWords(ws: seq<string>): seq<string> {
    seq(|ws|, i requires 0 <= i < |ws| => if i >= 1 && ws[i] in MinorWords then Lower(ws[i]) else ws[i])
  }

  /** How the input word `w` at position `i` reads in the title. */
  function TitleWord(w: string, i: nat): string {
    if i >= 1 && Capitalize(w) in MinorWords then Lower(w) else Capitalize(w)
  }

  /** The title words of a word list. */
  function TitleWords(ws: seq<string>): seq<string> {
    seq(|ws|, i requires 0 <= i < |ws| => TitleWord(ws[i], i))
  }

  /** `to_title_case`: empty input comes back unchanged; otherwise the input's
      words, each capitalised except that a minor word after the first is
      lower-cased, joined by single spaces. */
  function ToTitleCase(text: string): (r: string)
    ensures Split(r) == TitleWords(Split(text))
    ensures SingleSpaced(r)
    ensures text == [] ==> r == []
  {
    if text == [] then text
    else
      var ws := LowerMinorWords(Split(Capwords(text)));
      MinorOfCapitalized(Split(text));
      forall i | 0 <= i < |ws|
        ensures IsWord(ws[i])
      {
        CaseWords(Split(text)[i]);
        CaseWords(Capitalize(Split(text)[i]));
      }
      SplitJoin(ws);
      JoinWordsSingleSpaced(ws);
      Join(" ", ws)
  }

  /** A title word is already in title form. */
  lemma TitleWordStable(w: string, i: nat)
    requires IsWord(w)
    ensures TitleWord(TitleWord(w, i), i) == TitleWord(w, i)
  {
    CaseWords(w);
    CaseWords(Lower(w));
    CaseWords(Capitalize(w));
    assert Lower(Lower(w)) == Lower(w);
  }

  /** A non-empty input's title is its title words joined by single spaces. */
  lemma ToTitleCaseIs(text: string)
    requires text != []
    ensures ToTitleCase(text) == Join(" ", TitleWords(Split(text)))
  {
    MinorOfCapitalized(Split(text));
  }

  /** Lower-casing the minor words of the capitalised words gives the title
      words. */
  lemma MinorOfCapitalized(ws: seq<string>)
    ensures LowerMinorWords(CapitalizeAll(ws)) == TitleWords(ws)
  {
    var cs := CapitalizeAll(ws);
    forall i | 0 <= i < |ws|
      ensures LowerMinorWords(cs)[i] == TitleWords(ws)[i]
    {
      assert cs[i] == Capitalize(ws[i]);
      if ws[i] != [] {
        CapitalizeSettles(ws[i]);
      }
    }
  }

  /** Title-casing a title changes nothing. */
  lemma TitleCaseIdempotent(text: string)
    ensures ToTitleCase(ToTitleCase(text)) == ToTitleCase(text)
  {
    var r := ToTitleCase(text);
    if text != [] && r != [] {
      var ws := Split(text);
      var rs := Split(r);
      ToTitleCaseIs(text);
      ToTitleCaseIs(r);
      assert rs == TitleWords(ws);
      forall i | 0 <= i < |rs|
        ensures TitleWords(rs)[i] == TitleWords(ws)[i]
      {
        TitleWordStable(ws[i], i);
      }
      assert TitleWords(rs) == TitleWords(ws);
    }
  }
}

=== FILE: wiki_utils.dfy ===
/** The per-entity Wikipedia resolver (utils/wiki_utils.py): look the
    title-cased name up, follow at most one disambiguation page with the help
    of the language model, and collect length, URL and trailing page views.
    The wiki, the page-view provider and the clock are parameters. */
module WikiUtils {
  import opened Wrappers
  import opened Strings
  import TextUtils
  import LlmUtils

  /** A page property whose first access may raise. */
  datatype Fetch<+T> = Got(value: T) | Raised(message: string)

  /** An existing page as the page object exposes it. */
  datatype Page = Page(
    title: string,                   // canonical title
    textLength: Fetch<nat>,          // len(page.text)
    url: Fetch<string>,              // page.fullurl
    categories: Fetch<seq<string>>,  // titles of page.categories
    links: Fetch<seq<string>>)       // titles of page.links, in order

  /** Looking a title up: `page(title)` followed by `exists()`. */
  datatype Lookup = Missing | Exists(page: Page) | LookupRaised(message: string)

  type Wiki = string -> Lookup

  /** The page-view provider's answer for one article and date window. */
  datatype PageviewReply = Items(views: seq<int>) | ZeroViews | PageviewsRaised(message: string)

  /** Page views of (title, first day, last day); days are day numbers. */
  type Pageviews = (string, int, int) -> PageviewReply

  /** The dictionary `get_wikipedia_data` returns; `None` fields are Python `None`. */
  datatype WikiResult = WikiResult(
    title: string,
    length: Option<nat>,
    views: Option<int>,
    url: Option<string>,
    found: bool,
    error: Option<string>)

  const DisambiguationCategory: string := "Category:All disambiguation pages"

  const NotFoundMessage: string := "Page not found on Wikipedia."

  function UnexpectedError(message: string): string {
    "Unexpected error: " + message
  }

  function ResolveError(choice: string, message: string): string {
    "Error fetching resolved page '" + choice + "': " + message
  }

  function PageviewError(message: string): string {
    "Pageview fetch error: " + message
  }

  /** The record before any lookup: the processed name and nothing found. */
  function Initial(title: string): WikiResult {
    WikiResult(title, None, None, None, false, None)
  }

  /** A page is a disambiguation page iff it is in the disambiguation category. */
  predicate IsDisambiguation(categories: seq<string>) {
    exists k :: 0 <= k < |categories| && categories[k] == DisambiguationCategory
  }

  /** An existing page whose categories were read and do not mark it as a
      disambiguation page. */
  predicate IsArticle(page: Page) {
    page.categories.Got? && !IsDisambiguation(page.categories.value)
  }

  // ---------------------------------------------------------------------------
  // page views

  function Sum(xs: seq<int>): int {
    if xs == [] then 0 else xs[0] + Sum(xs[1..])
  }

  datatype ViewCount = Count(views: int) | ViewsError(message: string)

  /** `_fetch_page_views`: one query for the window ending today and starting
      `days` earlier; the daily counts summed, the zero-views signal read as 0,
      any other failure turned into a message. */
  function FetchPageViews(pageviews: Pageviews, title: string, today: int, days: int): (r: ViewCount)
    ensures pageviews(title, today - days, today).Items? ==> r == Count(Sum(pageviews(title, today - days, today).views))
    ensures pageviews(title, today - days, today).ZeroViews? ==> r == Count(0)
    ensures pageviews(title, today - days, today).PageviewsRaised? ==>
              r == ViewsError(PageviewError(pageviews(title, today - days, today).message))
  {
    match pageviews(title, today - days, today)
    case Items(vs) => Count(Sum(vs))
    case ZeroViews => Count(0)
    case PageviewsRaised(m) => ViewsError(PageviewError(m))
  }

  // ---------------------------------------------------------------------------
  // populating from a page

  /** The outcome of `_populate_from_page`: it finished, or a property access
      raised after some fields had already been written. */
  datatype Populated = Completed(info: WikiResult) | Interrupted(info: WikiResult, message: string)

  /** `page_info.get("error") or message`: an earlier non-empty error wins. */
  function FirstError(current: Option<string>, message: string): (r: Option<string>)
    ensures r.Some? && (r == current || r == Some(message))
    ensures current.Some? && current.value != [] ==> r == current
    ensures r.value != [] <==> (current.Some? && current.value != []) || message != []
  {
    if current.Some? && current.value != [] then current else Some(message)
  }

  /** `_populate_from_page`: marks the record found and takes the canonical
      title, then the text length, the URL and the trailing page views. A
      page-view failure keeps the page data and leaves `views` empty. */
  function Populate(info: WikiResult, page: Page, pageviews: Pageviews, today: int, days: int): (p: Populated)
    ensures p.info.found && p.info.title == page.title
    ensures p.Completed? <==> page.textLength.Got? && page.url.Got?
    ensures p.Completed? ==> p.info.length == Some(page.textLength.value) && p.info.url == Some(page.url.value)
    ensures p.Completed? ==>
              match FetchPageViews(pageviews, page.title, today, days)
              case Count(n) => p.info.views == Some(n) && p.info.error == info.error
              case ViewsError(m) => p.info.views == None && p.info.error == FirstError(info.error, m)
    ensures p.Interrupted? ==>
              && p.info.views == info.views && p.info.error == info.error
              && (page.textLength.Raised? ==> p.message == page.textLength.message && p.info.length == info.length)
              && (page.textLength.Got? ==> p.message == page.url.message && p.info.length == Some(page.textLength.value))
              && p.info.url == info.url
  {
    var marked := info.(found := true, title := page.title);
    match page.textLength
    case Raised(m) => Interrupted(marked, m)
    case Got(n) =>
      var measured := marked.(length := Some(n));
      match page.url
      case Raised(m) => Interrupted(measured, m)
      case Got(u) =>
        var located := measured.(url := Some(u));
        match FetchPageViews(pageviews, page.title, today, days)
        case Count(v) => Completed(located.(views := Some(v)))
        case ViewsError(m) => Completed(located.(views := None, error := FirstError(located.error, m)))
  }

  // ---------------------------------------------------------------------------
  // the resolution state machine

  /** Where a lookup ends. */
  datatype Landing =
    | NotFound                                  // no page under the title
    | Article(page: Page)                       // the title's own page
    | Resolved(choice: string, page: Page)      // one disambiguation step
    | Unresolved(options: seq<string>)          // disambiguation without a usable choice
    | ResolveFailed(choice: string, message: string)  // fetching the chosen page raised
    | Failed(message: string)                   // any other raised exception

  /** The disambiguation candidates: the page's links, or a single synthetic
      title when it has none. */
  function Options(title: string, links: seq<string>): (r: seq<string>)
    ensures r != []
    ensures links != [] ==> r == links
    ensures links == [] ==> r == [title + " (disambiguation)"]
  {
    if links == [] then [title + " (disambiguation)"] else links
  }

  /** The candidates offered for the title's own page, when it is a
      disambiguation page whose links could be read. */
  ghost predicate OffersChoice(wiki: Wiki, title: string, options: seq<string>) {
    && wiki(title).Exists?
    && wiki(title).page.categories.Got?
    && IsDisambiguation(wiki(title).page.categories.value)
    && wiki(title).page.links.Got?
    && options == Options(title, wiki(title).page.links.value)
  }

  /** The lookup and disambiguation part of `get_wikipedia_data`. */
  function Land(wiki: Wiki, client: Option<LlmUtils.Client>, title: string, question: string, answer: string): (l: Landing)
    ensures l.NotFound? <==> wiki(title).Missing?
    ensures l.Article? <==> wiki(title).Exists? && IsArticle(wiki(title).page)
    ensures l.Article? ==> l.page == wiki(title).page
    ensures l.Resolved? ==>
              && (exists options :: OffersChoice(wiki, title, options)
                                    && l.choice in options
                                    && LlmUtils.ResolveDisambiguation(client, title, options, question, answer) == Some(l.choice))
              && wiki(l.choice) == Exists(l.page)
              && IsArticle(l.page)
    ensures l.Unresolved? ==> OffersChoice(wiki, title, l.options)
    ensures wiki(title).LookupRaised? ==> l == Failed(wiki(title).message)
    ensures wiki(title).Exists? && wiki(title).page.categories.Raised? ==>
              l == Failed(wiki(title).page.categories.message)
    ensures && wiki(title).Exists? && wiki(title).page.categories.Got?
            && IsDisambiguation(wiki(title).page.categories.value) && wiki(title).page.links.Raised?
            ==> l == Failed(wiki(title).page.links.message)
    ensures forall options :: OffersChoice(wiki, title, options) ==>
              match LlmUtils.ResolveDisambiguation(client, title, options, question, answer)
              case None => l == Unresolved(options)
              case Some(c) =>
                match wiki(c)
                case Missing => l == Unresolved(options)
                case LookupRaised(m) => l == ResolveFailed(c, m)
                case Exists(p) =>
                  (p.categories.Raised? ==> l == ResolveFailed(c, p.categories.message))
                  && (p.categories.Got? && IsDisambiguation(p.categories.value) ==> l == Unresolved(options))
                  && (IsArticle(p) ==> l == Resolved(c, p))
  {
    match wiki(title)
    case LookupRaised(m) => Failed(m)
    case Missing => NotFound
    case Exists(page) =>
      match page.categories
      case Raised(m) => Failed(m)
      case Got(categories) =>
        if !IsDisambiguation(categories) then Article(page)
        else
          match page.links
          case Raised(m) => Failed(m)
          case Got(links) =>
            var options := Options(title, links);
            assert OffersChoice(wiki, title, options);
            match LlmUtils.ResolveDisambiguation(client, title, options, question, answer)
            case None => Unresolved(options)
            case Some(choice) =>
              match wiki(choice)
              case LookupRaised(m) => ResolveFailed(choice, m)
              case Missing => Unresolved(options)
              case Exists(chosen) =>
                match chosen.categories
                case Raised(m) => ResolveFailed(choice, m)
                case Got(chosenCategories) =>
                  if IsDisambiguation(chosenCategories) then Unresolved(options)
                  else Resolved(choice, chosen)
  }

  /** How many candidates the disambiguation error lists. */
  const ListedOptions: nat := 5

  /** The error naming the entity and up to five candidates: between the
      frame's head and its "..." stand the first five candidates, in order,
      separated by ", ". */
  function DisambiguationMessage(title: string, options: seq<string>): (r: string)
    ensures var head := "Disambiguation: " + title + ". Options: ";
            && |head| + 3 <= |r| && r[..|head|] == head && r[|r| - 3..] == "..."
            && r[|head|..|r| - 3] == Join(", ", Take(options, ListedOptions))
            && forall k :: 0 <= k < |options| && k < ListedOptions ==> Occurs(options[k], r[|head|..|r| - 3])
    ensures options == [] ==> r == "Disambiguation: " + title + ". Options: ..."
  {
    var head := "Disambiguation: " + title + ". Options: ";
    var shown := Take(options, ListedOptions);
    var r := head + Join(", ", shown) + "...";
    assert r[|head|..|r| - 3] == Join(", ", shown);
    forall k | 0 <= k < |options| && k < ListedOptions
      ensures Occurs(options[k], r[|head|..|r| - 3])
    {
      assert shown[k] == options[k];
      JoinContains(", ", shown, k);
    }
    r
  }

  /** The message of the handler that catches a raise while a page is being
      read: the outer handler for the title's own page, the resolution
      handler for a chosen page. */
  function HandlerError(choice: Option<string>, message: string): string {
    if choice.None? then UnexpectedError(message) else ResolveError(choice.value, message)
  }

  /** `r` is the record produced from `page`, starting from a record with no
      error, with `views` the page-view outcome and `choice` the
      disambiguation choice that led there, if any: found under the page's
      title; length and URL as far as they could be read; views only when the
      page was read completely; the error of the first raise, or the page-view
      error. */
  predicate Records(r: WikiResult, page: Page, views: ViewCount, choice: Option<string>) {
    var complete := page.textLength.Got? && page.url.Got?;
    && r.found && r.title == page.title
    && r.length == (if page.textLength.Got? then Some(page.textLength.value) else None)
    && r.url == (if complete then Some(page.url.value) else None)
    && r.views == (if complete && views.Count? then Some(views.views) else None)
    && r.error == (if page.textLength.Raised? then Some(HandlerError(choice, page.textLength.message))
                   else if page.url.Raised? then Some(HandlerError(choice, page.url.message))
                   else if views.ViewsError? then Some(views.message)
                   else None)
  }

  /** The record after populating the initial record from `page`, a raise
      reported by its handler. */
  function Settle(title: string, page: Page, pageviews: Pageviews, today: int, days: int,
                  choice: Option<string>): (r: WikiResult)
    ensures Records(r, page, FetchPageViews(pageviews, page.title, today, days), choice)
  {
    match Populate(Initial(title), page, pageviews, today, days)
    case Completed(info) => info
    case Interrupted(info, m) => info.(error := Some(HandlerError(choice, m)))
  }

  /** The record that each landing produces. Only a landing on a page marks
      the record found, with that page's title; the other landings leave the
      initial record with an error. */
  function Report(l: Landing, title: string, pageviews: Pageviews, today: int, days: int): (r: WikiResult)
    ensures !r.found ==>
              r.title == title && r.length == None && r.views == None && r.url == None && r.error.Some?
    ensures r.found <==> l.Article? || l.Resolved?
    ensures r.found ==> r.title == l.page.title
    ensures r.views.Some? ==> r.found && r.length.Some? && r.url.Some?
    ensures r.found && r.error.None? ==> r.length.Some? && r.url.Some? && r.views.Some?
    ensures l.NotFound? ==> r == Initial(title).(error := Some(NotFoundMessage))
    ensures l.Failed? ==> r == Initial(title).(error := Some(UnexpectedError(l.message)))
    ensures l.Unresolved? ==> r == Initial(title).(error := Some(DisambiguationMessage(title, l.options)))
    ensures l.ResolveFailed? ==> r == Initial(title).(error := Some(ResolveError(l.choice, l.message)))
    ensures l.Article? ==> Records(r, l.page, FetchPageViews(pageviews, l.page.title, today, days), None)
    ensures l.Resolved? ==> Records(r, l.page, FetchPageViews(pageviews, l.page.title, today, days), Some(l.choice))
  {
    var init := Initial(title);
    match l
    case NotFound => init.(error := Some(NotFoundMessage))
    case Failed(m) => init.(error := Some(UnexpectedError(m)))
    case Unresolved(options) => init.(error := Some(DisambiguationMessage(title, options)))
    case ResolveFailed(choice, m) => init.(error := Some(ResolveError(choice, m)))
    case Article(page) => Settle(title, page, pageviews, today, days, None)
    case Resolved(choice, page) => Settle(title, page, pageviews, today, days, Some(choice))
  }

  /** `get_wikipedia_data`. A record not marked found still carries the
      title-cased name, no page data, and an error; a found record names a
      non-disambiguation page reached directly or through one disambiguation
      choice; page views are present only with the page data. */
  function GetWikipediaData(wiki: Wiki, pageviews: Pageviews, client: Option<LlmUtils.Client>, today: int,
                            entity: string, question: string, answer: string, days: int): (r: WikiResult)
    ensures !r.found ==>
              && r.title == TextUtils.ToTitleCase(entity)
              && r.length == None && r.views == None && r.url == None
              && r.error.Some?
    ensures r.views.Some? ==> r.found && r.length.Some? && r.url.Some?
    ensures r.found && r.error.None? ==> r.length.Some? && r.url.Some? && r.views.Some?
    ensures wiki(TextUtils.ToTitleCase(entity)).Missing? ==>
              r == Initial(TextUtils.ToTitleCase(entity)).(error := Some(NotFoundMessage))
    ensures wiki(TextUtils.ToTitleCase(entity)).LookupRaised? ==>
              r == Initial(TextUtils.ToTitleCase(entity)).(error := Some(UnexpectedError(wiki(TextUtils.ToTitleCase(entity)).message)))
    ensures wiki(TextUtils.ToTitleCase(entity)).Exists? && wiki(TextUtils.ToTitleCase(entity)).page.categories.Raised? ==>
              r == Initial(TextUtils.ToTitleCase(entity)).(error := Some(UnexpectedError(wiki(TextUtils.ToTitleCase(entity)).page.categories.message)))
    ensures wiki(TextUtils.ToTitleCase(entity)).Exists? && IsArticle(wiki(TextUtils.ToTitleCase(entity)).page) ==>
              RecordsPage(r, wiki(TextUtils.ToTitleCase(entity)).page, pageviews, today, days, None)
    ensures r.found ==>
              var title := TextUtils.ToTitleCase(entity);
              || (wiki(title).Exists? && IsArticle(wiki(title).page) && RecordsPage(r, wiki(title).page, pageviews, today, days, None))
              || RecordsChoice(r, wiki, pageviews, client, today, title, question, answer, days)
  {
    var title := TextUtils.ToTitleCase(entity);
    var l := Land(wiki, client, title, question, answer);
    var r := Report(l, title, pageviews, today, days);
    assert l.Resolved? ==> RecordsChoice(r, wiki, pageviews, client, today, title, question, answer, days);
    r
  }

  /** `r` records the article that the client chose among the options of the
      disambiguation page `title`. */
  ghost predicate RecordsChoice(r: WikiResult, wiki: Wiki, pageviews: Pageviews, client: Option<LlmUtils.Client>,
                                today: int, title: string, question: string, answer: string, days: int)
  {
    exists options, c :: && OffersChoice(wiki, title, options) && c in options
                         && LlmUtils.ResolveDisambiguation(client, title, options, question, answer) == Some(c)
                         && wiki(c).Exists? && IsArticle(wiki(c).page)
                         && RecordsPage(r, wiki(c).page, pageviews, today, days, Some(c))
  }

  /** `r` is the record of `page` with the page views of its canonical title. */
  predicate RecordsPage(r: WikiResult, page: Page, pageviews: Pageviews, today: int, days: int, choice: Option<string>) {
    Records(r, page, FetchPageViews(pageviews, page.title, today, days), choice)
  }
}

=== FILE: wrappers.dfy ===
/** Optional values and results with an error arm: the model's stand-in for
    Python's `None` returns and caught exceptions. */
module Wrappers {

  datatype Option<+T> = None | Some(value: T)

  datatype Result<+T, +E> = Ok(value: T) | Err(error: E)
}
